=== FILE: README.md ===
# WalletLight core in Dafny

WalletLight is an iOS cash-wallet assistant for visually impaired users.
It keeps a ledger of the physical cash the user holds: a count per euro
denomination, a running balance, a newest-first transaction history and a
savings goal. Money gets into the ledger in three ways:

- a camera screen that reads a banknote and adds it once the user confirms;
- a scan sheet that does the same, or hands the amount to the change calculator;
- a picker for manual entry.

The change calculator takes a price and the scanned payment. It classifies
the result as exact, short or change due, and suggests a greedy breakdown
of the change. Wallet and chart screens display the ledger.

The model covers these parts:

- **Ledger** (`Ledger`, `Tally`). `WalletManager` as pure functions on an immutable `Wallet`, plus the ledger invariant: total = Σ denomination × count, and no key with a zero count. Includes the `reduce` that recomputes the total on reload.
- **Catalog** (`Catalog`). The fourteen face values and the banknote subset. Also `formattedDenomination`, which appears four times in the source (WalletManager, WalletView, ManualEntryView, DenominationChartView) with the same body and is defined once here.
- **Recognition gates** (`Recognition`). One per scanning screen: how a classifier answer becomes an amount or a rejection.
- **Sessions** (`ScanMoney`, `HomeScan`). The capture, cancel and confirm buttons of `ScanMoneyView` and `HomeView`, as total step functions on a state value. A press on a button the screen does not show changes nothing.
- **Calculator** (`Calculate`). `CalculateView`: the greedy breakdown (a recursive reference definition and the loop that computes it), the suggestion text, `formatAmount`, the result message, and the calculator state.
- **Screens** (`WalletScreen`, `ManualEntry`, `DenominationChart`). Their formatting and aggregation logic.

All amounts are integer cents, so 0.50 € is 50, and goals and balances are
cents too. Swift's `Int(amount)` on a euro amount is `Catalog.TruncEuros`,
which truncates toward zero. The classifier's answer and the camera frame
are inputs of the capture step. Transaction identifiers and dates are a
`Stamp` the caller supplies.

Which amounts reach the ledger:

- `addMoney` accepts any amount. Only the manual picker and `HomeView` restrict what is added to catalog values (`ManualEntry.PressAdd`, `HomeScan.RunKeepsWallet`).
- The scan sheet keeps the label's digits and '.', reads them as a decimal, and checks only the truncated euro part. It therefore accepts a label "5.5" as 5.50 € and adds it (`Recognition.ScanAcceptsNonCatalogValue`).

## Model

| member | source | states |
|---|---|---|
| Catalog.CatalogShape | WalletLight/ManualEntryView.swift:7-11 | the catalog is fourteen strictly ascending values; the calculator's walk order is its reverse; each banknote value is a catalog value |
| Catalog.TruncEuros | WalletLight/ScanMoneyView.swift:91 | `Int(amount)` truncates toward zero: the cents it drops are in [0, 100) for non-negative amounts and in (-100, 0] for negative ones |
| Catalog.Label | WalletLight/WalletManager.swift:129-141 | catalog coins up to two euros get "N cent(s)"/"N euro(s)" labels, other catalog values "N euros", and anything else "⌊amount⌋ euros" |
| Catalog.LabelsDistinct | WalletLight/ManualEntryView.swift:55-67 | no two catalog values share a label |
| Text.ParseCents | WalletLight/ScanMoneyView.swift:89 | a text that reads as an amount is non-empty and starts with a digit or '.' |
| Text.ParseNumeral | WalletLight/ScanMoneyView.swift:89 | digits `w`, '.', digits `f` (some digit present, nothing but zeros past the hundredths) read as `w` euros plus the cents `f` denotes |
| Text.ParsedShape | WalletLight/ScanMoneyView.swift:89 | conversely, every text that reads as an amount is digits, optionally a '.' and digits, and reads as that numeral's value |
| Tally.SumByRemove | WalletLight/WalletManager.swift:105 | the dictionary sum is independent of the order keys come out: any key can be taken first |
| Tally.SumByUpdate | WalletLight/WalletManager.swift:37 | overwriting one count changes the sum by exactly the difference of that entry's terms |
| Tally.FoldMap | WalletLight/WalletManager.swift:105 | the `reduce` loop yields the order-free sum over the dictionary |
| Tally.SortedEntries | WalletLight/DenominationChartView.swift:8-10 | the sorted entries have strictly ascending keys, each is an entry of the dictionary, every key appears, and nothing is added |
| Tally.SeqSumOfEntries | WalletLight/DenominationChartView.swift:12-14 | summing the sorted list front to back gives the dictionary's sum |
| Ledger.AddMoney | WalletLight/WalletManager.swift:36-43 | one more piece of `d` (inserted at 1 when absent), all other counts unchanged, total up by `d`, one `.add` record in front of the unchanged history, goal unchanged |
| Ledger.RemoveMoney | WalletLight/WalletManager.swift:45-54 | with no piece of `d` nothing changes; otherwise one piece fewer, the key dropped at zero, total down by `d`, one `.remove` record in front |
| Ledger.ClearAll | WalletLight/WalletManager.swift:56-61 | no pieces and a zero total; history and goal kept |
| Ledger.ClearHistory | WalletLight/WalletManager.swift:75-80 | empty history; pieces, total and goal kept |
| Ledger.SetGoal | WalletLight/WalletManager.swift:63-67 | any goal is stored unvalidated; nothing else changes |
| Ledger.LoadTransactions | WalletLight/WalletManager.swift:88-93 | a decoded history replaces the current one; without one nothing changes |
| Ledger.LoadDenominations | WalletLight/WalletManager.swift:101-107 | a decoded dictionary replaces the current one and the total becomes its Σ denomination × count; without one nothing changes |
| Ledger.Startup | WalletLight/WalletManager.swift:26-34 | a new manager holds the stored goal, the saved dictionary (or none) with its recomputed total, and the saved history (or none) |
| Ledger.StartupValid | WalletLight/WalletManager.swift:30-32 | a manager started from a saved dictionary without zero counts satisfies the ledger invariant |
| Ledger.AddPreservesValid | WalletLight/WalletManager.swift:36-39 | `addMoney` keeps total = Σ denomination × count with all counts positive |
| Ledger.RemovePreservesValid | WalletLight/WalletManager.swift:45-50 | `removeMoney` keeps the invariant, so no zero-count key is ever stored |
| Ledger.ClearAllValid | WalletLight/WalletManager.swift:56-58 | clearing yields a wallet satisfying the invariant |
| Ledger.AddThenRemove | WalletLight/WalletManager.swift:36-54 | adding then removing one piece restores pieces and total exactly, while the history gains two records over the old one |
| Ledger.AddTimesEffect | WalletLight/WalletManager.swift:36-43 | n additions of `d` raise its count by n and the total by n·d and touch no other count |
| Ledger.RemoveTimesEffect | WalletLight/WalletManager.swift:45-54 | n removals of `d` from a count of at least n lower it by n, drop the key exactly when it reaches zero, and lower the total by n·d |
| Ledger.AddRemoveTimesRoundTrip | WalletLight/WalletManager.swift:37-49 | n additions then n removals of the same value restore pieces and total |
| Ledger.ValidAfterOps | WalletLight/WalletManager.swift:36-93 | any sequence of add, remove, clear, goal and history-load operations preserves the ledger invariant |
| Recognition.ScanReading | WalletLight/ScanMoneyView.swift:89 | a label of only digits and dots reads exactly as the text itself would; one with neither reads as nothing |
| Recognition.ScanReadsNumeral | WalletLight/ScanMoneyView.swift:89 | a label of digits, '.', digits reads as the amount it spells |
| Recognition.ScanGate | WalletLight/ScanMoneyView.swift:88-100 | accept iff a label is present, its digits and dots read as an amount, confidence ≥ 0.8, and the truncated euro value is a banknote; the accepted amount is the untruncated reading |
| Recognition.HomeReading | WalletLight/HomeView.swift:86-88 | the label's digits, run together, read as an `Int`; no digits or a value beyond `Int.max` reads as nothing |
| Recognition.HomeGate | WalletLight/HomeView.swift:85-97 | accept iff the digits read as an `Int`, confidence ≥ 0.8, and the value is a banknote; an accepted value in cents is a catalog value |
| Recognition.GatesAgreeWithoutDot | WalletLight/HomeView.swift:86-88 | on labels without '.', HomeView's gate accepts exactly the labels ScanMoneyView's does, at the same amount |
| Recognition.DottedLabelSplitsTheGates | WalletLight/HomeView.swift:86-88 | "20.5" is accepted as 20.50 € by ScanMoneyView and read as 205 and refused by HomeView |
| Recognition.ScanAcceptsNonCatalogValue | WalletLight/ScanMoneyView.swift:89-94 | ScanMoneyView accepts "5.5" as 5.50 €, a value outside the catalog |
| Recognition.FiftyExamples | WalletLight/ScanMoneyView.swift:88-91 | "50" at confidence 0.95 is accepted by both gates; at 0.5 both refuse it for confidence |
| Recognition.ThresholdExample | WalletLight/ScanMoneyView.swift:90 | confidence exactly 0.8 passes |
| Recognition.NotBanknoteExample | WalletLight/ScanMoneyView.swift:91 | "37" reads as a number but is refused as no banknote by both gates |
| Recognition.UnreadableExamples | WalletLight/ScanMoneyView.swift:88-89 | a label without digits is refused as unreadable; a missing label is refused first |
| Recognition.WordLabelExample | WalletLight/HomeView.swift:86 | HomeView reads "50 euros" as 50 and accepts it |
| ScanMoney.Deliver | WalletLight/ScanMoneyView.swift:65-69 | with a callback the amount is appended to what the callback received and the ledger is untouched; otherwise it is added to the wallet |
| ScanMoney.Classify | WalletLight/ScanMoneyView.swift:88-100 | an accepted reading becomes the pending amount and the status shows its euros; a rejection gives the capture button back, keeps the pending amount, and shows "try again" |
| ScanMoney.Step | WalletLight/ScanMoneyView.swift:35-71 | a press the sheet does not offer changes nothing; an offered capture enters the captured state and, only when a frame came, classifies it (an accept stays captured with the amount held, a reject gives the capture button back); the sheet's consistency is kept; only an offered confirm with a pending amount reaches the sink, and it delivers that amount; confirm always dismisses; cancel clears the capture |
| ScanMoney.DismissedIsFinal | WalletLight/ScanMoneyView.swift:71 | a dismissed sheet ignores every later press |
| ScanMoney.AtMostOneDelivery | WalletLight/ScanMoneyView.swift:63-71 | over any press sequence the sink is either untouched or has received exactly one banknote amount and the sheet is dismissed |
| ScanMoney.CallbackGetsAtMostOne | WalletLight/ScanMoneyView.swift:65-66 | opened from the calculator, the callback receives at most one amount, and it is a banknote reading |
| ScanMoney.LedgerGetsAtMostOne | WalletLight/ScanMoneyView.swift:67-68 | opened from the wallet, the ledger gains at most one transaction and keeps its invariant |
| ScanMoney.CaptureThenConfirm | WalletLight/ScanMoneyView.swift:36-71 | capturing a readable banknote and confirming delivers exactly the gate's amount and closes the sheet |
| ScanMoney.RejectedCaptureRetries | WalletLight/ScanMoneyView.swift:96-99 | a rejected capture returns to the waiting state with the capture button back and "try again" shown |
| HomeScan.Classify | WalletLight/HomeView.swift:85-97 | an accepted reading becomes the pending euros shown on screen; a rejection gives the capture button back and shows "try again" |
| HomeScan.Step | WalletLight/HomeView.swift:30-63 | an unoffered press changes nothing; an offered capture enters the captured state and, only when a frame came, classifies it (an accept stays captured with the euros held, a reject gives the capture button back); consistency is kept; the wallet changes only on a confirm with a pending amount, by adding that many euros; cancel and confirm return to waiting |
| HomeScan.RunKeepsWallet | WalletLight/HomeView.swift:58-62 | over any press sequence the ledger invariant holds, only catalog values are added, the total never drops, and each press adds at most one transaction |
| HomeScan.TwoBanknotes | WalletLight/HomeView.swift:30-63 | two accepted captures, each confirmed, add both amounts: the screen stays open for more |
| HomeScan.AgreesWithScanSheet | WalletLight/HomeView.swift:58-62 | for a label without '.', capture then confirm leaves the same wallet on this screen as on the scan sheet |
| Calculate.Greedy | WalletLight/CalculateView.swift:155-160 | every line of the walk has a count of at least one, and there are no more lines than denominations |
| Calculate.GreedyValue | WalletLight/CalculateView.swift:155-160 | what the walk takes never exceeds a non-negative amount, and equals it when the last denomination is one cent |
| Calculate.GreedyMaximal | WalletLight/CalculateView.swift:155-160 | after each line, what the later lines cover is less than that line's denomination, so one more piece would not have fitted; for a strictly descending list, what the walk leaves to values below any listed denomination, skipped ones included, is less than that denomination |
| Calculate.GreedyLeavesLess | WalletLight/CalculateView.swift:155-160 | at every denomination of a strictly descending list, taken or skipped, the lines of smaller denominations add up to less than it |
| Calculate.GreedyUnique | WalletLight/CalculateView.swift:155-160 | any descending list of lines from the denominations, with positive counts, that sums to the amount and leaves less than each denomination at its turn is the walk's result |
| Calculate.GreedyFrom | WalletLight/CalculateView.swift:151-155 | every listed denomination comes from the walk's list |
| Calculate.GreedyDescending | WalletLight/CalculateView.swift:151-158 | the lines keep the list's strictly descending order, so no denomination appears twice |
| Calculate.GreedyEmpty | WalletLight/CalculateView.swift:155-163 | the walk lists nothing exactly when every denomination exceeds the amount |
| Calculate.Breakdown | WalletLight/CalculateView.swift:150-161 | the breakdown sums to any non-negative amount and is empty iff the amount is below one cent |
| Calculate.BreakdownFacts | WalletLight/CalculateView.swift:150-163 | the breakdown lists catalog values once each, strictly descending, with positive counts; it sums to any non-negative amount; each count is maximal; what it leaves for values below any catalog value is less than that value; it is empty iff the amount is below one cent |
| Calculate.BreakdownUnique | WalletLight/CalculateView.swift:150-161 | the breakdown is the only descending list of catalog lines with positive counts that sums to the amount and leaves less than each catalog value at its turn |
| Calculate.BreakdownExample | WalletLight/CalculateView.swift:150-161 | 7.50 € breaks down as one 5 € note, one 2 € coin and one 50-cent coin |
| Calculate.Walk | WalletLight/CalculateView.swift:152-161 | the loop that subtracts each denomination's pieces computes the recursive greedy breakdown |
| Calculate.SuggestedParts | WalletLight/CalculateView.swift:150-161 | the loop over the catalog yields the breakdown |
| Calculate.PartLabel | WalletLight/CalculateView.swift:157 | a suggestion line ends in "s" exactly when it is a cent coin with a count above one |
| Calculate.PartLabelInjective | WalletLight/CalculateView.swift:157 | two suggestion lines of catalog values read the same only when they have the same denomination and count |
| Calculate.CatalogPayable | WalletLight/CalculateView.swift:151 | every value of the walk's list is positive and, from one euro up, a whole number of euros, which is what `PartLabelInjective` requires |
| Calculate.SuggestChange | WalletLight/CalculateView.swift:150-164 | the text is "No suitable change available." iff the amount is below one cent; otherwise it is the breakdown's lines joined by ", " |
| Calculate.FormatAmount | WalletLight/CalculateView.swift:123-125 | whole euros print without decimals, anything else with two |
| Calculate.FormatAmountRoundTrip | WalletLight/CalculateView.swift:123-125 | a formatted amount reads back as the same amount through the price parser |
| Calculate.FormatAmountInjective | WalletLight/CalculateView.swift:123-125 | two amounts are formatted alike iff they are equal |
| Calculate.ResultText | WalletLight/CalculateView.swift:134-142 | zero change gives the role's exact-payment message, negative change "Additional €… needed…", positive change "Change required: €…" |
| Calculate.ResultTextInjective | WalletLight/CalculateView.swift:134-142 | for a given role, the message determines the change |
| Calculate.CalculateChange | WalletLight/CalculateView.swift:127-132 | with a price and a payment, change = payment − price, the price read with ',' as '.'; an unreadable price or a disabled button changes nothing |
| Calculate.ChangeAccountsForPayment | WalletLight/CalculateView.swift:128-130 | once computed, change plus price gives back the payment |
| Calculate.CommaPrice | WalletLight/CalculateView.swift:128-129 | a price typed with a decimal comma reads as the same amount as with a point |
| Calculate.CommaChange | WalletLight/CalculateView.swift:128-130 | a price typed with a decimal comma gives the same change as with a point |
| Calculate.ScanAdded | WalletLight/CalculateView.swift:116-117 | a scanned amount is added to the payment and nothing else changes |
| Calculate.ScanSheetPayment | WalletLight/CalculateView.swift:115-120 | one scan sheet raises the payment by nothing or by one banknote reading of at least 5 €, and leaves role, price and change alone |
| Calculate.Reset | WalletLight/CalculateView.swift:144-148 | reset, offered only once a change is shown, clears price, payment and change and keeps the role |
| Calculate.Panel | WalletLight/CalculateView.swift:87-98 | the message shows iff a change was computed and is its result text; the suggestion shows iff the change is positive, and then it is never the no-change message |
| Calculate.ChangeExample | WalletLight/CalculateView.swift:150-161 | 2.50 € of change is suggested as one 2 € coin and one 50-cent coin |
| Calculate.ChangeTextExample | WalletLight/CalculateView.swift:139-140 | 2.50 € of change reads "Change required: €2.50" |
| WalletScreen.WalletAmount | WalletLight/WalletView.swift:221-234 | the balance text is never empty; it starts with a digit for a non-negative amount and with '-' for a negative one |
| WalletScreen.WalletAmountShape | WalletLight/WalletView.swift:221-234 | every non-negative balance text is a number and a unit, and the two read back as the amount |
| WalletScreen.WalletAmountInjective | WalletLight/WalletView.swift:221-234 | different non-negative amounts are shown differently |
| WalletScreen.ProgressAsWritten | WalletLight/WalletView.swift:57 | the bar as written stays at most 1 and is non-negative for a non-negative balance |
| WalletScreen.GoalAchieved | WalletLight/WalletView.swift:39 | the badge shows only for a positive balance |
| WalletScreen.ProgressDisagreesWithBadge | WalletLight/WalletView.swift:39-57 | with a 0.30 € goal and a 0.50 € balance the badge shows while the bar as written is half full |
| WalletScreen.Progress | WalletLight/WalletView.swift:57 | the corrected bar is in [0, 1] for a non-negative balance, and for a positive goal it is full iff the goal-achieved badge shows |
| WalletScreen.ProgressAgreesFromOneEuro | WalletLight/WalletView.swift:57 | for goals of one euro or more the corrected bar equals the bar as written |
| WalletScreen.Render | WalletLight/WalletView.swift:25-127 | the screen shows the balance and goal lines, the badge iff the balance reaches a positive goal, the bar as written (at most 1, non-negative for a non-negative balance, full iff the badge shows for goals of one euro or more), and one "label x count" row per entry in ascending face value |
| WalletScreen.DeleteConfirm | WalletLight/WalletView.swift:151-160 | with nothing selected nothing happens; a selected denomination held loses one piece and its value from the total; one not held changes nothing |
| WalletScreen.DeleteRow | WalletLight/WalletView.swift:131-157 | confirming deletion from a row removes one piece of that row's value, touches no other count, and keeps the invariant |
| WalletScreen.DeleteAllConfirm | WalletLight/WalletView.swift:111-118 | delete-all leaves no pieces and a zero total, with history and goal kept |
| ManualEntry.DefaultIsChoice | WalletLight/ManualEntryView.swift:13 | the initial selection, 5 €, is a catalog value |
| ManualEntry.PickerRows | WalletLight/ManualEntryView.swift:26-29 | the picker lists the label of every catalog value, in catalog order |
| ManualEntry.PickerRowsDistinct | WalletLight/ManualEntryView.swift:26-29 | no two picker rows read the same |
| ManualEntry.PressAdd | WalletLight/ManualEntryView.swift:36-38 | Add adds one piece of the selected value, so a ledger of catalog values stays one |
| ManualEntry.PressAddValid | WalletLight/ManualEntryView.swift:36-38 | Add keeps the ledger invariant |
| ManualEntry.ManualAmount | WalletLight/ManualEntryView.swift:69-79 | this screen's amount text is the wallet screen's for every non-zero amount, and "0 cents" for zero |
| ManualEntry.AmountFormatsAgree | WalletLight/ManualEntryView.swift:69-79 | this screen's amount text equals the wallet screen's for every amount except zero ("0 cents" against "0 euro") |
| DenominationChart.ColourFor | WalletLight/DenominationChartView.swift:91-108 | black exactly for values outside the catalog; gray (opacity 0.2 to 0.7) exactly for the cent coins |
| DenominationChart.GrayGrowsWithValue | WalletLight/DenominationChartView.swift:93-98 | a larger cent coin gets a darker gray |
| DenominationChart.ColoursDistinct | WalletLight/DenominationChartView.swift:91-106 | two different catalog values never share a colour |
| DenominationChart.TotalCount | WalletLight/DenominationChartView.swift:12-14 | the count is the sum of all counts; with positive counts it is at least the number of keys and zero iff the dictionary is empty |
| DenominationChart.PiecesAtLeastKeys | WalletLight/DenominationChartView.swift:12-14 | with every count positive there are at least as many pieces as keys |
| DenominationChart.Percentage | WalletLight/DenominationChartView.swift:32 | 0 when there are no pieces; otherwise the share times the total is the count in percent, between 0 and 100 for a count within the total |
| DenominationChart.PercentSumScales | WalletLight/DenominationChartView.swift:53 | the listed shares, times the total, give the listed pieces in percent |
| DenominationChart.Slices | WalletLight/DenominationChartView.swift:24-41 | one slice per entry in ascending face value, with that value's label and colour and its share of all pieces |
| DenominationChart.SlicesFillTheRing | WalletLight/DenominationChartView.swift:30-41 | for a non-empty dictionary with positive counts every slice is positive and together they make 100% |

## Left out

- Binary floating point. Amounts are integer cents, so the balance's `+=`/`-=` never drift and `suggestChange`'s `round(100 * remaining) / 100` has no error to remove. Chart percentages and the progress bar are exact reals.
- Calculate.SuggestChange: breaks down the exact change in cents. The app passes it the `Double` difference `paymentAmount - price`, which can fall just below the true value. For 10 € paid on a 9.99 € price the app would then suggest no coin at all, and for 9.98 € it would suggest "1 x 1 cent" instead of "1 x 2 cents"; the same holds for 5 € on 4.99 € and 50 € on 49.99 € (worked out from IEEE 754 double subtraction, not executed).
- Calculate.Panel: states when the suggestion shows and that it is not the no-change text; its content is `Calculate.SuggestChange`'s, whose contract gives it. With the app's `Double` change the panel can show "Change required: €0.01" next to "No suitable change available." (10 € paid on 9.99 €), which the exact-cents model rules out.
- `String(format: "%.2f")`. It is modelled as whole euros, a '.', and two digits of cents, which matches it for the non-negative amounts the screens show.
- Text.ParseCents: reads only `digits[.digits]`, which covers what the scan sheet's digit-and-dot filter can produce. Swift's `Double(String)` also accepts signs, exponents, "inf"/"nan" and hexadecimal forms, which a typed price could contain. A reading with a non-zero digit past the hundredths is refused rather than rounded.
- Recognition.HomeReading: keeps only the ASCII digits 0 to 9. `HomeView` keeps every Unicode decimal digit, and `Int(...)` then refuses the non-ASCII ones, so a label such as "5٠" that the app refuses would read here as 5. The classifier's labels are ASCII.
- Recognition.HomeGate: requires a label. `HomeView` force-unwraps the classifier's label before testing it, so an unlabelled frame stops the app; `HomeScan.Step` and `HomeScan.Run` carry the same requirement.
- Camera capture, the CoreML classifier, `DispatchQueue` hops, speech, haptics and accessibility announcements. The frame and the classifier's answer are inputs of the capture press, and classification is synchronous.
- Persistence through `UserDefaults`. Saving has no effect on the modelled state. Loading is an optional decoded value (`Ledger.LoadDenominations`, `Ledger.LoadTransactions`, `Ledger.Startup`); `WalletView` reloads the dictionary on appearing through the same function.
- `UUID()` and `Date()`. A transaction's id and date come from a caller-supplied `Stamp`.
- Status line texts ("Detected: N€", "Low confidence, try again!", "Waiting for detection...") are status values, not strings. The scan sheet's `isScanning` flag only feeds the camera view and is not modelled.
- The wallet's delete-confirmation prompt text, the chart's "%.2f" percent text, and all accessibility labels.
- Swift `Int` overflow of counts and of the chart's piece total. Integers are unbounded. Only `HomeView`'s `Int(...)` parse of the label models the 64-bit limit, because there it returns nil and the gate refuses; the conversions `Int(Double)` below, and `suggestChange`'s `Int(remaining / denom)` for a change of 200 · 2^63 euros or more, trap instead, and a trap stops the app rather than producing a value.
- Recognition.ScanGate: a label whose reading is 2^63 euros or more (19 or more digits) with confidence at least 0.8 makes `Int(amount)` in `ScanMoneyView` trap, stopping the app; the gate refuses it as no banknote instead.
- WalletScreen.WalletAmount: a whole amount of 2^63 euros or more makes `Int(amount)` in `formattedAmount` trap. The savings-goal form accepts such a goal and stores it, so the wallet screen would stop the app on every launch; the model returns the digits and " euros" instead.
- `ContentView` (not reachable from the app's navigation, with its own unpersisted balance), `SavingsGoalView` (a form calling `setSavingsGoal`), `TransactionHistoryView`, onboarding, navigation bar and other layout code.

## Findings

| source | as written | input that shows it | evidently intended | confidence | as-written member | corrected member |
|---|---|---|---|---|---|---|
| WalletLight/WalletView.swift:57 | the progress bar divides the balance by `max(goal, 1)`, i.e. by at least one euro | a goal of 0.30 € (the goal form accepts any decimal) and a balance of 0.50 €: "Goal Achieved" shows while the bar is at 0.5 | divide by the goal whenever it is positive, so the bar is full exactly when the badge shows | not executed; moderate: sub-euro goals are unusual but accepted | WalletScreen.ProgressAsWritten, WalletScreen.ProgressDisagreesWithBadge | WalletScreen.Progress |

`WalletScreen.Render` draws the bar as written, as the app does. `WalletScreen.Progress` is the corrected bar, and `WalletScreen.ProgressAgreesFromOneEuro` shows that the two differ only for goals below one euro.

=== FILE: calculator.dfy ===
/**
 * `CalculateView`: the change calculator. The user types a price, scans
 * the money handed over (each scan sheet adds its amount to the payment),
 * and asks for the change. A positive change comes with a suggested
 * breakdown into catalog denominations, computed greedily from the
 * largest value down. All amounts are integer cents.
 */
module Calculate {
  import opened Wrappers
  import opened Text
  import opened Catalog
  import ScanMoney
  import Ledger

  /** One line of the suggestion: `count` pieces of `denomination` cents. */
  datatype Part = Part(denomination: int, count: int)

  predicate AllPositive(ds: seq<int>) {
    forall i | 0 <= i < |ds| :: ds[i] > 0
  }

  predicate StrictlyDescending(ds: seq<int>) {
    forall i, j | 0 <= i < j < |ds| :: ds[i] > ds[j]
  }

  /** Σ denomination × count. */
  function PartsValue(ps: seq<Part>): int
    decreases |ps|
  {
    if ps == [] then 0 else ps[0].denomination * ps[0].count + PartsValue(ps[1..])
  }

  /**
   * The greedy walk: for each denomination the amount still covers, take
   * as many pieces as fit and carry the rest to the next denomination.
   */
  function Greedy(ds: seq<int>, remaining: int): (ps: seq<Part>)
    requires AllPositive(ds)
    ensures forall i | 0 <= i < |ps| :: ps[i].count >= 1
    ensures |ps| <= |ds|
    decreases |ds|
  {
    if ds == [] then []
    else if remaining >= ds[0] then
      [Part(ds[0], remaining / ds[0])] + Greedy(ds[1..], remaining % ds[0])
    else
      Greedy(ds[1..], remaining)
  }

  /**
   * What the walk takes never exceeds a non-negative amount, and covers it
   * exactly when the smallest denomination is 1.
   */
  lemma {:induction false} GreedyValue(ds: seq<int>, r: int)
    requires AllPositive(ds) && r >= 0
    ensures 0 <= PartsValue(Greedy(ds, r)) <= r
    ensures |ds| > 0 && ds[|ds| - 1] == 1 ==> PartsValue(Greedy(ds, r)) == r
    decreases |ds|
  {
    if ds != [] {
      var d := ds[0];
      var tail := ds[1..];
      assert AllPositive(tail);
      assert |ds| > 1 ==> tail[|tail| - 1] == ds[|ds| - 1];
      if r >= d {
        var m := r % d;
        GreedyStep(ds, r);
        DivMod(r, d);
        GreedyValue(tail, m);
        if |ds| == 1 {
          assert tail == [];
          if d == 1 {
            assert m == 0;
          }
        }
      } else {
        assert Greedy(ds, r) == Greedy(tail, r);
        GreedyValue(tail, r);
      }
    }
  }

  /** Taking the first denomination: its line's value plus what the rest of the walk takes. */
  lemma GreedyStep(ds: seq<int>, r: int)
    requires AllPositive(ds) && ds != [] && r >= ds[0]
    ensures AllPositive(ds[1..])
    ensures Greedy(ds, r) == [Part(ds[0], r / ds[0])] + Greedy(ds[1..], r % ds[0])
    ensures PartsValue(Greedy(ds, r)) == ds[0] * (r / ds[0]) + PartsValue(Greedy(ds[1..], r % ds[0]))
  {
    var ps := Greedy(ds, r);
    assert ps[1..] == Greedy(ds[1..], r % ds[0]);
  }

  lemma DivMod(r: int, d: int)
    requires d > 0 && r >= 0
    ensures d * (r / d) + r % d == r
    ensures 0 <= r % d < d
    ensures r / d >= 0 && d * (r / d) >= 0
  {
  }

  /**
   * Greedy maximality: after the pieces of each listed denomination are
   * taken, what the later lines cover is less than that denomination, so
   * one more piece would not have fitted; and on a strictly descending
   * walk, what is left when any denomination's turn comes, taken or
   * skipped, is less than that denomination.
   */
  lemma GreedyMaximal(ds: seq<int>, r: int)
    requires AllPositive(ds) && r >= 0
    ensures Maximal(Greedy(ds, r))
    ensures StrictlyDescending(ds) ==> LeftBelow(ds, Greedy(ds, r))
  {
    TakenMaximal(ds, r);
    if StrictlyDescending(ds) {
      GreedyLeavesLess(ds, r);
    }
  }

  lemma {:induction false} TakenMaximal(ds: seq<int>, r: int)
    requires AllPositive(ds) && r >= 0
    ensures Maximal(Greedy(ds, r))
    decreases |ds|
  {
    if ds != [] {
      if r >= ds[0] {
        var m := FirstLineMaximal(ds, r);
        TakenMaximal(ds[1..], m);
        var ps := Greedy(ds, r);
        assert ps == [ps[0]] + ps[1..];
        MaximalCons(ps[0], ps[1..]);
      } else {
        GreedySkip(ds, r);
        TakenMaximal(ds[1..], r);
      }
    }
  }

  /** What the lines after line `i` cover. */
  function After(ps: seq<Part>, i: int): int
    requires 0 <= i < |ps|
  {
    PartsValue(ps[i + 1..])
  }

  /** After each line, what the later lines cover is less than that line's denomination. */
  predicate Maximal(ps: seq<Part>) {
    forall i {:trigger After(ps, i)} | 0 <= i < |ps| :: 0 <= After(ps, i) < ps[i].denomination
  }

  /** A line in front of maximal lines that cover less than its denomination keeps them maximal. */
  lemma MaximalCons(p: Part, rest: seq<Part>)
    requires 0 <= PartsValue(rest) < p.denomination && Maximal(rest)
    ensures Maximal([p] + rest)
  {
    var ps := [p] + rest;
    assert After(ps, 0) == PartsValue(rest) by {
      assert ps[1..] == rest;
    }
    forall i | 0 < i < |ps|
      ensures 0 <= After(ps, i) < ps[i].denomination
    {
      assert ps[i + 1..] == rest[i..];
      assert After(ps, i) == After(rest, i - 1);
      assert ps[i] == rest[i - 1];
    }
  }

  /** When the first denomination is taken, the rest of the walk covers less than it. */
  lemma FirstLineMaximal(ds: seq<int>, r: int) returns (m: int)
    requires AllPositive(ds) && ds != [] && r >= ds[0]
    ensures m >= 0 && AllPositive(ds[1..])
    ensures Greedy(ds, r)[1..] == Greedy(ds[1..], m)
    ensures Greedy(ds, r)[0].denomination == ds[0]
    ensures 0 <= PartsValue(Greedy(ds, r)[1..]) < ds[0]
  {
    m := r % ds[0];
    GreedyStep(ds, r);
    DivMod(r, ds[0]);
    GreedyValue(ds[1..], m);
  }

  /** Passing over a denomination larger than the amount. */
  lemma GreedySkip(ds: seq<int>, r: int)
    requires AllPositive(ds) && ds != [] && r < ds[0]
    ensures AllPositive(ds[1..])
    ensures Greedy(ds, r) == Greedy(ds[1..], r)
  {
  }

  /** Every listed denomination is one the walk passes. */
  lemma {:induction false} GreedyFrom(ds: seq<int>, r: int)
    requires AllPositive(ds)
    ensures var ps := Greedy(ds, r);
      forall i | 0 <= i < |ps| :: ps[i].denomination in ds
    decreases |ds|
  {
    if ds != [] {
      var r' := if r >= ds[0] then r % ds[0] else r;
      if r >= ds[0] {
        GreedyStep(ds, r);
      } else {
        GreedySkip(ds, r);
      }
      GreedyFrom(ds[1..], r');
      var ps := Greedy(ds, r);
      var rest := Greedy(ds[1..], r');
      forall i | 0 <= i < |ps|
        ensures ps[i].denomination in ds
      {
        if ps != rest && i > 0 {
          assert ps[i] == rest[i - 1];
        }
      }
    }
  }

  /** The listed denominations keep the walk's strictly descending order, so none appears twice. */
  lemma {:induction false} GreedyDescending(ds: seq<int>, r: int)
    requires AllPositive(ds) && StrictlyDescending(ds)
    ensures var ps := Greedy(ds, r);
      forall i, j | 0 <= i < j < |ps| :: ps[i].denomination > ps[j].denomination
    decreases |ds|
  {
    if ds != [] {
      var d := ds[0];
      var r' := if r >= d then r % d else r;
      if r >= d {
        GreedyStep(ds, r);
      } else {
        GreedySkip(ds, r);
      }
      GreedyDescending(ds[1..], r');
      GreedyFrom(ds[1..], r');
      var rest := Greedy(ds[1..], r');
      forall k | 0 <= k < |rest|
        ensures rest[k].denomination < d
      {
        var m :| 0 <= m < |ds[1..]| && ds[1..][m] == rest[k].denomination;
        assert ds[m + 1] == rest[k].denomination;
      }
    }
  }

  /** The walk lists nothing exactly when every denomination exceeds the amount. */
  lemma {:induction false} GreedyEmpty(ds: seq<int>, r: int)
    requires AllPositive(ds)
    ensures Greedy(ds, r) == [] <==> forall i | 0 <= i < |ds| :: r < ds[i]
    decreases |ds|
  {
    if ds != [] {
      if r < ds[0] {
        GreedyEmpty(ds[1..], r);
        if forall i | 0 <= i < |ds[1..]| :: r < ds[1..][i] {
          forall i | 0 <= i < |ds|
            ensures r < ds[i]
          {
            if i > 0 {
              assert ds[i] == ds[1..][i - 1];
            }
          }
        }
      }
    }
  }

  /** What the lines of denominations below `d` cover: the amount still left when the walk reaches `d`. */
  function ValueBelow(ps: seq<Part>, d: int): int
    decreases |ps|
  {
    if ps == [] then 0
    else (if ps[0].denomination < d then ps[0].denomination * ps[0].count else 0) + ValueBelow(ps[1..], d)
  }

  /** At the turn of every denomination of the walk, taken or skipped, what is left is less than it. */
  predicate LeftBelow(ds: seq<int>, ps: seq<Part>) {
    forall j | 0 <= j < |ds| :: ValueBelow(ps, ds[j]) < ds[j]
  }

  /** Lines with positive counts of denominations from `ds`, in strictly descending order. */
  predicate Lines(ds: seq<int>, ps: seq<Part>) {
    && (forall i | 0 <= i < |ps| :: ps[i].count >= 1 && ps[i].denomination in ds)
    && (forall i, j | 0 <= i < j < |ps| :: ps[i].denomination > ps[j].denomination)
  }

  lemma {:induction false} ValueBelowAll(ps: seq<Part>, d: int)
    requires forall i | 0 <= i < |ps| :: ps[i].denomination < d
    ensures ValueBelow(ps, d) == PartsValue(ps)
    decreases |ps|
  {
    if ps != [] {
      ValueBelowAll(ps[1..], d);
    }
  }

  lemma ValueBelowCons(p: Part, rest: seq<Part>, e: int)
    requires p.denomination >= e
    ensures ValueBelow([p] + rest, e) == ValueBelow(rest, e)
  {
    assert ([p] + rest)[1..] == rest;
  }

  lemma {:induction false} PartsNonNegative(ps: seq<Part>)
    requires forall i | 0 <= i < |ps| :: ps[i].denomination > 0 && ps[i].count >= 1
    ensures PartsValue(ps) >= 0
    decreases |ps|
  {
    if ps != [] {
      PartsNonNegative(ps[1..]);
    }
  }

  /** On a strictly descending walk, no denomination's turn leaves as much as that denomination. */
  lemma {:induction false} GreedyLeavesLess(ds: seq<int>, r: int)
    requires AllPositive(ds) && StrictlyDescending(ds) && r >= 0
    ensures LeftBelow(ds, Greedy(ds, r))
    decreases |ds|
  {
    if ds != [] {
      var d, tail := ds[0], ds[1..];
      var r' := if r >= d then r % d else r;
      var ps := Greedy(ds, r);
      var rest := Greedy(tail, r');
      assert AllPositive(tail) && StrictlyDescending(tail);
      if r >= d {
        GreedyStep(ds, r);
        DivMod(r, d);
        assert ps == [ps[0]] + rest;
      } else {
        GreedySkip(ds, r);
      }
      GreedyLeavesLess(tail, r');
      GreedyFrom(tail, r');
      GreedyValue(tail, r');
      forall i | 0 <= i < |rest|
        ensures rest[i].denomination < d
      {
        var m :| 0 <= m < |tail| && tail[m] == rest[i].denomination;
        assert ds[m + 1] == tail[m];
      }
      ValueBelowAll(rest, d);
      forall j | 0 <= j < |ds|
        ensures ValueBelow(ps, ds[j]) < ds[j]
      {
        if r >= d {
          ValueBelowCons(ps[0], rest, ds[j]);
        }
        if j > 0 {
          assert ds[j] == tail[j - 1];
        }
      }
    }
  }

  /** The quotient and remainder are the only way to write `r` as `c` pieces of `d` and less than `d` left. */
  lemma DivModUnique(r: int, d: int, c: int, b: int)
    requires d > 0 && 0 <= b < d && c >= 0 && r == d * c + b
    ensures r / d == c && r % d == b
    ensures c >= 1 ==> r >= d
  {
    if c >= 1 {
      AtLeastOnce(d, c);
    }
    DivMod(r, d);
    var q := r / d;
    if q < c {
      Distribute(d, c, q);
      AtLeastOnce(d, c - q);
    } else if q > c {
      Distribute(d, q, c);
      AtLeastOnce(d, q - c);
    }
  }

  lemma Distribute(d: int, a: int, b: int)
    ensures d * (a - b) == d * a - d * b
  {
  }

  lemma AtLeastOnce(d: int, k: int)
    requires d > 0 && k >= 1
    ensures d * k >= d
  {
  }

  /**
   * The greedy walk is the only list of descending lines over `ds` that
   * covers `r` and leaves less than each denomination at its turn.
   */
  lemma {:induction false} GreedyUnique(ds: seq<int>, ps: seq<Part>, r: int)
    requires AllPositive(ds) && StrictlyDescending(ds)
    requires Lines(ds, ps) && LeftBelow(ds, ps) && PartsValue(ps) == r
    ensures ps == Greedy(ds, r)
    decreases |ds|, 1
  {
    if ds == [] {
      if ps != [] {
        assert false;
      }
    } else if ps != [] && ps[0].denomination == ds[0] {
      UniqueTake(ds, ps, r);
    } else {
      UniqueSkip(ds, ps, r);
    }
  }

  /** When the lines start with the first denomination, the walk takes it and the rest is unique over the tail. */
  lemma {:induction false} UniqueTake(ds: seq<int>, ps: seq<Part>, r: int)
    requires AllPositive(ds) && StrictlyDescending(ds)
    requires Lines(ds, ps) && LeftBelow(ds, ps) && PartsValue(ps) == r
    requires ds != [] && ps != [] && ps[0].denomination == ds[0]
    ensures ps == Greedy(ds, r)
    decreases |ds|, 0
  {
    var d, tail, rest := ds[0], ds[1..], ps[1..];
    LinesTake(ds, ps);
    assert ps == [ps[0]] + rest;
    ValueBelowAll(rest, d);
    ValueBelowCons(ps[0], rest, d);
    assert ValueBelow(ps, ds[0]) < ds[0];
    PartsNonNegative(rest);
    var b := PartsValue(rest);
    DivModUnique(r, d, ps[0].count, b);
    GreedyStep(ds, r);
    forall j | 0 <= j < |tail|
      ensures ValueBelow(rest, tail[j]) < tail[j]
    {
      assert tail[j] == ds[j + 1];
      ValueBelowCons(ps[0], rest, tail[j]);
    }
    GreedyUnique(tail, rest, b);
  }

  /** When the lines do not start with the first denomination, the walk skips it. */
  lemma {:induction false} UniqueSkip(ds: seq<int>, ps: seq<Part>, r: int)
    requires AllPositive(ds) && StrictlyDescending(ds)
    requires Lines(ds, ps) && LeftBelow(ds, ps) && PartsValue(ps) == r
    requires ds != [] && (ps == [] || ps[0].denomination != ds[0])
    ensures ps == Greedy(ds, r)
    decreases |ds|, 0
  {
    var d, tail := ds[0], ds[1..];
    LinesSkip(ds, ps);
    ValueBelowAll(ps, d);
    assert ValueBelow(ps, ds[0]) < ds[0];
    GreedySkip(ds, r);
    forall j | 0 <= j < |tail|
      ensures ValueBelow(ps, tail[j]) < tail[j]
    {
      assert tail[j] == ds[j + 1];
    }
    GreedyUnique(tail, ps, r);
  }

  /** Every line's denomination is positive and at most the walk's first. */
  lemma LinesBounded(ds: seq<int>, ps: seq<Part>)
    requires AllPositive(ds) && StrictlyDescending(ds) && ds != [] && Lines(ds, ps)
    ensures forall i | 0 <= i < |ps| :: 0 < ps[i].denomination <= ds[0]
    ensures forall i | 0 <= i < |ps| :: ps[i].denomination != ds[0] ==> ps[i].denomination in ds[1..]
  {
    forall i | 0 <= i < |ps|
      ensures 0 < ps[i].denomination <= ds[0]
      ensures ps[i].denomination != ds[0] ==> ps[i].denomination in ds[1..]
    {
      var k :| 0 <= k < |ds| && ds[k] == ps[i].denomination;
      if k > 0 {
        assert ds[1..][k - 1] == ds[k];
      }
    }
  }

  lemma LinesTake(ds: seq<int>, ps: seq<Part>)
    requires AllPositive(ds) && StrictlyDescending(ds) && ds != [] && Lines(ds, ps)
    requires ps != [] && ps[0].denomination == ds[0]
    ensures Lines(ds[1..], ps[1..])
    ensures forall i | 0 <= i < |ps[1..]| :: 0 < ps[1..][i].denomination < ds[0]
  {
    LinesBounded(ds, ps);
    var rest := ps[1..];
    forall i | 0 <= i < |rest|
      ensures 0 < rest[i].denomination < ds[0] && rest[i].denomination in ds[1..] && rest[i].count >= 1
    {
      assert rest[i] == ps[i + 1];
    }
    forall i, j | 0 <= i < j < |rest|
      ensures rest[i].denomination > rest[j].denomination
    {
      assert rest[i] == ps[i + 1] && rest[j] == ps[j + 1];
    }
  }

  lemma LinesSkip(ds: seq<int>, ps: seq<Part>)
    requires AllPositive(ds) && StrictlyDescending(ds) && ds != [] && Lines(ds, ps)
    requires ps == [] || ps[0].denomination != ds[0]
    ensures Lines(ds[1..], ps)
    ensures forall i | 0 <= i < |ps| :: 0 < ps[i].denomination < ds[0]
  {
    LinesBounded(ds, ps);
    forall i | 0 <= i < |ps|
      ensures ps[i].denomination < ds[0]
    {
      if i > 0 {
        assert ps[0].denomination > ps[i].denomination;
      }
    }
  }

  /** `suggestChange`'s breakdown of an amount over the catalog, largest value first. */
  function Breakdown(amount: int): (ps: seq<Part>)
    ensures amount >= 0 ==> PartsValue(ps) == amount
    ensures ps == [] <==> amount < 1
  {
    DescendingShape();
    WalkFacts(Descending, amount);
    Greedy(Descending, amount)
  }

  /**
   * The breakdown of a change amount: descending catalog values, each once
   * with a positive count, summing to the amount, each count as large as
   * fits, what is left at any catalog value's turn below that value, and
   * empty exactly when the amount is below one cent.
   */
  lemma BreakdownFacts(amount: int)
    ensures var ps := Breakdown(amount);
      && (forall i | 0 <= i < |ps| :: ps[i].count >= 1 && IsDenomination(ps[i].denomination))
      && (forall i, j | 0 <= i < j < |ps| :: ps[i].denomination > ps[j].denomination)
      && (amount >= 0 ==> PartsValue(ps) == amount)
      && (amount >= 0 ==> Maximal(ps))
      && (amount >= 0 ==> forall e | IsDenomination(e) :: ValueBelow(ps, e) < e)
      && (ps == [] <==> amount < 1)
  {
    DescendingShape();
    WalkFacts(Descending, amount);
    if amount >= 0 {
      CatalogLeftBelow(Breakdown(amount));
    }
  }

  /** Leaving less than every value of the walk order is leaving less than every catalog value. */
  lemma CatalogLeftBelow(ps: seq<Part>)
    requires LeftBelow(Descending, ps)
    ensures forall e | IsDenomination(e) :: ValueBelow(ps, e) < e
  {
    forall e | IsDenomination(e)
      ensures ValueBelow(ps, e) < e
    {
      CatalogInWalkOrder(e);
      var j :| 0 <= j < |Descending| && Descending[j] == e;
    }
  }

  lemma CatalogInWalkOrder(e: int)
    requires IsDenomination(e)
    ensures e in Descending
  {
  }

  /**
   * The breakdown is the only list of descending catalog lines with
   * positive counts that sums to the amount and leaves less than each
   * catalog value at its turn: any other list with these properties is it.
   */
  lemma BreakdownUnique(amount: int, ps: seq<Part>)
    requires forall i | 0 <= i < |ps| :: ps[i].count >= 1 && IsDenomination(ps[i].denomination)
    requires forall i, j | 0 <= i < j < |ps| :: ps[i].denomination > ps[j].denomination
    requires forall e | IsDenomination(e) :: ValueBelow(ps, e) < e
    requires PartsValue(ps) == amount
    ensures ps == Breakdown(amount)
  {
    BreakdownIsWalk(amount);
    CatalogUnique(amount, ps);
  }

  lemma BreakdownIsWalk(amount: int)
    ensures Breakdown(amount) == Greedy(Descending, amount)
  {
  }

  lemma CatalogUnique(amount: int, ps: seq<Part>)
    requires forall i | 0 <= i < |ps| :: ps[i].count >= 1 && IsDenomination(ps[i].denomination)
    requires forall i, j | 0 <= i < j < |ps| :: ps[i].denomination > ps[j].denomination
    requires forall e | IsDenomination(e) :: ValueBelow(ps, e) < e
    requires PartsValue(ps) == amount
    ensures ps == Greedy(Descending, amount)
  {
    CatalogLines(ps);
    CatalogBelow(ps);
    WalkOrderUnique(ps, amount);
  }

  lemma WalkOrderUnique(ps: seq<Part>, amount: int)
    requires Lines(Descending, ps) && LeftBelow(Descending, ps) && PartsValue(ps) == amount
    ensures ps == Greedy(Descending, amount)
  {
    DescendingShape();
    GreedyUnique(Descending, ps, amount);
  }

  lemma CatalogLines(ps: seq<Part>)
    requires forall i | 0 <= i < |ps| :: ps[i].count >= 1 && IsDenomination(ps[i].denomination)
    requires forall i, j | 0 <= i < j < |ps| :: ps[i].denomination > ps[j].denomination
    ensures Lines(Descending, ps)
  {
    forall i | 0 <= i < |ps|
      ensures ps[i].denomination in Descending
    {
      CatalogInWalkOrder(ps[i].denomination);
    }
  }

  lemma CatalogBelow(ps: seq<Part>)
    requires forall e | IsDenomination(e) :: ValueBelow(ps, e) < e
    ensures LeftBelow(Descending, ps)
  {
    forall j | 0 <= j < |Descending|
      ensures ValueBelow(ps, Descending[j]) < Descending[j]
    {
      assert IsDenomination(Descending[j]);
    }
  }

  /** The facts above for any walk order that is positive, strictly descending and ends at one cent. */
  lemma WalkFacts(ds: seq<int>, amount: int)
    requires AllPositive(ds) && StrictlyDescending(ds) && |ds| > 0 && ds[|ds| - 1] == 1
    requires forall x | x in ds :: IsDenomination(x)
    ensures var ps := Greedy(ds, amount);
      && (forall i | 0 <= i < |ps| :: ps[i].count >= 1 && IsDenomination(ps[i].denomination))
      && (forall i, j | 0 <= i < j < |ps| :: ps[i].denomination > ps[j].denomination)
      && (amount >= 0 ==> PartsValue(ps) == amount)
      && (amount >= 0 ==> Maximal(ps) && LeftBelow(ds, ps))
      && (ps == [] <==> amount < 1)
  {
    GreedyFrom(ds, amount);
    GreedyDescending(ds, amount);
    GreedyEmpty(ds, amount);
    assert (forall i | 0 <= i < |ds| :: amount < ds[i]) ==> amount < 1 by {
      assert ds[|ds| - 1] == 1;
    }
    assert amount < 1 ==> forall i | 0 <= i < |ds| :: amount < ds[i];
    if amount >= 0 {
      GreedyValue(ds, amount);
      GreedyMaximal(ds, amount);
    }
  }

  /** The walk order is strictly descending, positive, ends at one cent, and holds exactly the catalog values. */
  lemma DescendingShape()
    ensures AllPositive(Descending) && StrictlyDescending(Descending)
    ensures Descending[|Descending| - 1] == 1
    ensures forall x | x in Descending :: IsDenomination(x)
  {
  }

  /** Passing over a run of denominations all larger than the amount. */
  lemma {:induction false} SkipLarger(ds: seq<int>, k: nat, r: int)
    requires AllPositive(ds) && k <= |ds|
    requires forall i | 0 <= i < k :: r < ds[i]
    ensures AllPositive(ds[k..])
    ensures Greedy(ds, r) == Greedy(ds[k..], r)
    decreases k
  {
    if k > 0 {
      GreedySkip(ds, r);
      SkipLarger(ds[1..], k - 1, r);
      assert ds[1..][k - 1..] == ds[k..];
    }
  }

  /** Fifty cents, from the one-euro coin down: one fifty-cent coin. */
  lemma FiftyCentsTail()
    ensures AllPositive(Descending[7..])
    ensures Greedy(Descending[7..], 50) == [Part(50, 1)]
  {
    var ds := Descending;
    DescendingShape();
    GreedyEmpty(ds[9..], 0);
    GreedyStep(ds[8..], 50);
    assert ds[8..][1..] == ds[9..];
    GreedySkip(ds[7..], 50);
    assert ds[7..][1..] == ds[8..];
  }

  /** Two euros fifty, from the two-euro coin down. */
  lemma TwoFiftyTail()
    ensures Greedy(Descending[6..], 250) == [Part(200, 1), Part(50, 1)]
  {
    var ds := Descending;
    DescendingShape();
    FiftyCentsTail();
    GreedyStep(ds[6..], 250);
    assert ds[6..][1..] == ds[7..];
  }

  /** An amount below the `k`-th largest value's predecessor starts its breakdown at that value. */
  lemma BreakdownFrom(k: nat, amount: int)
    requires 0 < k <= |Descending| && amount < Descending[k - 1]
    ensures Breakdown(amount) == Greedy(Descending[k..], amount)
  {
    var ds := Descending;
    DescendingShape();
    forall i | 0 <= i < k
      ensures amount < ds[i]
    {
      assert ds[i] >= ds[k - 1];
    }
    SkipLarger(ds, k, amount);
  }

  /** Seven fifty from the five-euro note down: one note, then two fifty. */
  lemma SevenFiftyTail()
    ensures Greedy(Descending[5..], 750) == [Part(500, 1)] + Greedy(Descending[6..], 250)
  {
    var ds := Descending;
    DescendingShape();
    GreedyStep(ds[5..], 750);
    assert ds[5..][1..] == ds[6..];
    assert 750 / 500 == 1 && 750 % 500 == 250;
  }

  /** Seven and a half euros: one five-euro note, one two-euro coin, one fifty-cent coin. */
  lemma BreakdownExample()
    ensures Breakdown(750) == [Part(500, 1), Part(200, 1), Part(50, 1)]
  {
    BreakdownFrom(5, 750);
    SevenFiftyTail();
    TwoFiftyTail();
  }

  /**
   * `suggestChange`'s loop: walk the denominations in order, take as many
   * pieces of each as the remaining amount covers, and subtract them.
   */
  method Walk(ds: seq<int>, amount: int) returns (ps: seq<Part>)
    requires AllPositive(ds)
    ensures ps == Greedy(ds, amount)
  {
    ps := [];
    var remaining := amount;
    var i := 0;
    while i < |ds|
      invariant 0 <= i <= |ds|
      invariant AllPositive(ds[i..])
      invariant ps + Greedy(ds[i..], remaining) == Greedy(ds, amount)
    {
      var d := ds[i];
      assert ds[i..][0] == d && ds[i..][1..] == ds[i + 1..];
      if remaining >= d {
        var count := remaining / d;
        GreedyStep(ds[i..], remaining);
        DivModSubtract(remaining, d);
        ps := ps + [Part(d, count)];
        remaining := remaining - d * count;
      } else {
        GreedySkip(ds[i..], remaining);
      }
      i := i + 1;
    }
  }

  /** Subtracting the pieces taken leaves the remainder. */
  lemma DivModSubtract(r: int, d: int)
    requires d > 0
    ensures r - d * (r / d) == r % d
  {
  }

  /** The breakdown, computed by the loop over the catalog. */
  method SuggestedParts(amount: int) returns (ps: seq<Part>)
    ensures ps == Breakdown(amount)
  {
    DescendingShape();
    ps := Walk(Descending, amount);
  }

  /**
   * One suggestion line: "N x €D" for euro values, "N x C cent" for cent
   * values with an "s" only when N is above one.
   */
  function PartLabel(p: Part): (r: string)
    ensures |r| > 0 && (r[|r| - 1] == 's' <==> p.denomination < 100 && p.count > 1)
  {
    var a := Amount(p);
    assert a[|a| - 1] == 's' <==> p.denomination < 100 && p.count > 1 by {
      AmountEnd(p);
    }
    IntToString(p.count) + (" x " + a)
  }

  lemma AmountEnd(p: Part)
    ensures |Amount(p)| > 0
    ensures Amount(p)[|Amount(p)| - 1] == 's' <==> p.denomination < 100 && p.count > 1
  {
    if p.denomination >= 100 {
      var n := NatToString(TruncEuros(p.denomination));
      assert Amount(p) == "€" + n;
      assert IsDigit(n[|n| - 1]);
    }
  }

  /** The part of a line after "N x ". */
  function Amount(p: Part): string {
    if p.denomination >= 100 then "€" + IntToString(TruncEuros(p.denomination))
    else IntToString(p.denomination) + " cent" + (if p.count > 1 then "s" else "")
  }

  /** Positive, and a whole number of euros from one euro up: true of every catalog value. */
  predicate Payable(d: int) {
    d > 0 && (d >= 100 ==> d % 100 == 0)
  }

  /** Every catalog value is payable, so `PartLabelInjective` covers every suggestion line. */
  lemma CatalogPayable(d: int)
    requires IsDenomination(d)
    ensures Payable(d)
  {
  }

  /**
   * Two lines with non-negative counts of catalog-like values read the same
   * only when they are the same line.
   */
  lemma PartLabelInjective(p: Part, q: Part)
    requires Payable(p.denomination) && p.count >= 0
    requires Payable(q.denomination) && q.count >= 0
    requires PartLabel(p) == PartLabel(q)
    ensures p == q
  {
    var tp, tq := " x " + Amount(p), " x " + Amount(q);
    NumberThenSuffix(p.count, tp, q.count, tq);
    assert Amount(p) == tp[3..] && Amount(q) == tq[3..];
    AmountInjective(p, q);
  }

  lemma AmountInjective(p: Part, q: Part)
    requires Payable(p.denomination) && p.count >= 0
    requires Payable(q.denomination) && q.count >= 0
    requires p.count == q.count && Amount(p) == Amount(q)
    ensures p == q
  {
    var a := Amount(p);
    if p.denomination >= 100 && q.denomination >= 100 {
      var ep, eq := TruncEuros(p.denomination), TruncEuros(q.denomination);
      assert a[1..] == NatToString(ep) && a[1..] == NatToString(eq);
      NatToStringInjective(ep, eq);
    } else if p.denomination < 100 && q.denomination < 100 {
      var sp := " cent" + (if p.count > 1 then "s" else "");
      assert a == NatToString(p.denomination) + sp;
      assert a == NatToString(q.denomination) + sp;
      NumberThenSuffix(p.denomination, sp, q.denomination, sp);
    } else {
      AmountLead(p);
      AmountLead(q);
      assert false;
    }
  }

  /** A line's amount starts with '€' for euro values and with a digit for cent values. */
  lemma AmountLead(p: Part)
    ensures |Amount(p)| > 0
    ensures p.denomination >= 100 ==> Amount(p)[0] == '€'
    ensures 0 <= p.denomination < 100 ==> IsDigit(Amount(p)[0])
  {
    if 0 <= p.denomination < 100 {
      assert Amount(p)[0] == NatToString(p.denomination)[0];
    }
  }

  function Labels(ps: seq<Part>): (ls: seq<string>)
    ensures |ls| == |ps| && forall i | 0 <= i < |ps| :: ls[i] == PartLabel(ps[i])
  {
    seq(|ps|, i requires 0 <= i < |ps| => PartLabel(ps[i]))
  }

  const NoChange := "No suitable change available."

  /** `suggestChange`: the breakdown's lines joined by ", ", or a fixed message when there are none. */
  method SuggestChange(amount: int) returns (text: string)
    ensures amount < 1 <==> text == NoChange
    ensures amount >= 1 ==> text == Join(Labels(Breakdown(amount)), ", ")
  {
    var ps := SuggestedParts(amount);
    BreakdownFacts(amount);
    if ps == [] {
      text := NoChange;
    } else {
      text := Join(Labels(ps), ", ");
      assert text[0] == NatToString(ps[0].count)[0] by {
        JoinStartsWithFirst(Labels(ps), ", ");
      }
    }
  }

  lemma JoinStartsWithFirst(parts: seq<string>, sep: string)
    requires |parts| > 0 && |parts[0]| > 0
    ensures |Join(parts, sep)| > 0 && Join(parts, sep)[0] == parts[0][0]
  {
  }

  /** `formatAmount` for a non-negative amount: no decimals when it is whole euros, two otherwise. */
  function FormatAmount(cents: nat): (s: string)
    ensures cents % 100 == 0 ==> s == NatToString(cents / 100)
    ensures cents % 100 != 0 ==> s == NatToString(cents / 100) + "." + Pad2(cents % 100)
  {
    if cents % 100 == 0 then NatToString(cents / 100)
    else NatToString(cents / 100) + "." + Pad2(cents % 100)
  }

  /** A formatted amount reads back as the same amount. */
  lemma FormatAmountRoundTrip(cents: nat)
    ensures ParseCents(FormatAmount(cents)) == Some(cents)
  {
    EurosAndCents(cents);
    FormatRoundTripFrom(cents / 100, cents % 100);
  }

  lemma FormatRoundTripFrom(n: nat, c: nat)
    requires c < 100
    ensures ParseCents(if c == 0 then NatToString(n) else NatToString(n) + "." + Pad2(c)) == Some(n * 100 + c)
  {
    if c == 0 {
      ParseWholeRoundTrip(n);
    } else {
      ParseDecimalRoundTrip(n, c);
    }
  }

  lemma EurosAndCents(cents: nat)
    ensures cents == (cents / 100) * 100 + cents % 100 && 0 <= cents % 100 < 100
  {
  }

  lemma FormatAmountInjective(a: nat, b: nat)
    ensures FormatAmount(a) == FormatAmount(b) <==> a == b
  {
    FormatAmountRoundTrip(a);
    FormatAmountRoundTrip(b);
  }

  datatype Role = Buyer | Seller

  /** The exact-payment messages, each written as two joined literals so that the verifier can read its first letters. */
  const ExactForBuyer := "Exact payment." + " No change needed."
  const ExactForSeller := "Customer paid" + " the exact amount. No change required."
  const ChangePrefix := "Change required: €"
  const ShortPrefix := "Additional €"
  const ShortSuffix := " needed to complete the payment."

  /** `changeResultText`: exact payment (worded by role), money still owed, or change due. */
  function ResultText(role: Role, change: int): (s: string)
    ensures change == 0 && role == Buyer ==> s == ExactForBuyer
    ensures change == 0 && role == Seller ==> s == ExactForSeller
    ensures change < 0 ==> s == ShortPrefix + FormatAmount(-change) + ShortSuffix
    ensures change > 0 ==> s == ChangePrefix + FormatAmount(change)
  {
    if change == 0 then
      (if role == Buyer then ExactForBuyer else ExactForSeller)
    else if change < 0 then ShortPrefix + FormatAmount(-change) + ShortSuffix
    else ChangePrefix + FormatAmount(change)
  }

  /** For a given role, the message determines the change: no two amounts share a message. */
  lemma ResultTextInjective(role: Role, a: int, b: int)
    requires ResultText(role, a) == ResultText(role, b)
    ensures a == b
  {
    ResultTextLead(role, a);
    ResultTextLead(role, b);
    LeadDecides(role, a, b);
    if a > 0 {
      ChangeDueInjective(a, b);
    } else if a < 0 {
      StillOwedInjective(-a, -b);
    }
  }

  /** The two letters a message starts with for a role and a change. */
  function Lead(role: Role, change: int): string {
    if change > 0 then "Ch" else if change < 0 then "Ad" else if role == Buyer then "Ex" else "Cu"
  }

  /** Equal leads mean the same case: both changes due, both short, or both exact. */
  lemma LeadDecides(role: Role, a: int, b: int)
    requires Lead(role, a) == Lead(role, b)
    ensures (a > 0 <==> b > 0) && (a < 0 <==> b < 0)
  {
    assert "Ch" != "Ad" && "Ch" != "Ex" && "Ch" != "Cu";
    assert "Ad" != "Ex" && "Ad" != "Cu";
  }

  lemma ChangeDueInjective(a: nat, b: nat)
    requires ChangePrefix + FormatAmount(a) == ChangePrefix + FormatAmount(b)
    ensures a == b
  {
    SamePrefixSameRest(ChangePrefix, FormatAmount(a), FormatAmount(b));
    FormatAmountInjective(a, b);
  }

  lemma StillOwedInjective(a: nat, b: nat)
    requires ShortPrefix + FormatAmount(a) + ShortSuffix == ShortPrefix + FormatAmount(b) + ShortSuffix
    ensures a == b
  {
    SameFrameSameMiddle(ShortPrefix, FormatAmount(a), FormatAmount(b), ShortSuffix);
    FormatAmountInjective(a, b);
  }

  lemma SameFrameSameMiddle(p: string, u: string, v: string, q: string)
    requires p + u + q == p + v + q
    ensures u == v
  {
    assert p + u + q == p + (u + q);
    assert p + v + q == p + (v + q);
    SamePrefixSameRest(p, u + q, v + q);
    SameSuffixSameRest(u, v, q);
  }

  lemma SamePrefixSameRest(p: string, u: string, v: string)
    requires p + u == p + v
    ensures u == v
  {
    assert u == (p + u)[|p|..];
    assert v == (p + v)[|p|..];
  }

  lemma SameSuffixSameRest(u: string, v: string, q: string)
    requires u + q == v + q
    ensures u == v
  {
    assert u == (u + q)[..|u|];
    assert v == (v + q)[..|v|];
  }

  /** A text that starts with `p` starts with the first two letters of `p`. */
  lemma LeadOf(p: string, x: string, lead: string)
    requires |p| >= 2 && p[..2] == lead
    ensures |p + x| >= 2 && (p + x)[..2] == lead
  {
    assert (p + x)[..2] == p[..2];
  }

  lemma ChangeLead(change: int)
    requires change > 0
    ensures |ResultText(Buyer, change)| >= 2 && ResultText(Buyer, change)[..2] == "Ch"
    ensures ResultText(Seller, change) == ResultText(Buyer, change)
  {
    assert ChangePrefix[..2] == "Ch";
    LeadOf(ChangePrefix, FormatAmount(change), "Ch");
  }

  lemma ShortLead(change: int)
    requires change < 0
    ensures |ResultText(Buyer, change)| >= 2 && ResultText(Buyer, change)[..2] == "Ad"
    ensures ResultText(Seller, change) == ResultText(Buyer, change)
  {
    assert ShortPrefix[..2] == "Ad";
    LeadOf(ShortPrefix, FormatAmount(-change), "Ad");
    LeadOf(ShortPrefix + FormatAmount(-change), ShortSuffix, "Ad");
  }

  lemma ExactLead()
    ensures |ResultText(Buyer, 0)| >= 2 && ResultText(Buyer, 0)[..2] == "Ex"
    ensures |ResultText(Seller, 0)| >= 2 && ResultText(Seller, 0)[..2] == "Cu"
  {
    LeadOf("Exact payment.", " No change needed.", "Ex");
    LeadOf("Customer paid", " the exact amount. No change required.", "Cu");
  }

  /** The first two letters of a message tell its case apart. */
  lemma ResultTextLead(role: Role, change: int)
    ensures |ResultText(role, change)| >= 2
    ensures ResultText(role, change)[..2] == Lead(role, change)
  {
    if change > 0 {
      ChangeLead(change);
    } else if change < 0 {
      ShortLead(change);
    } else {
      ExactLead();
    }
  }

  /** The calculator's state: role, price text, payment so far (cents), and the last computed change. */
  datatype Calc = Calc(role: Role, priceText: string, payment: nat, change: Option<int>)

  const Initial := Calc(Buyer, "", 0, None)

  /** The calculate button is disabled with no price typed or nothing paid. */
  predicate CanCalculate(c: Calc) {
    c.priceText != [] && c.payment != 0
  }

  /** The price field read as an amount, a decimal comma accepted as a point. */
  function PriceCents(text: string): Option<nat> {
    ParseCents(Replace(text, ',', '.'))
  }

  /** `calculateChange`: change = payment − price; a price that does not read leaves everything as it was. */
  function CalculateChange(c: Calc): (r: Calc)
    ensures !CanCalculate(c) || PriceCents(c.priceText).None? ==> r == c
    ensures CanCalculate(c) && PriceCents(c.priceText).Some? ==>
              r == c.(change := Some(c.payment - PriceCents(c.priceText).value))
  {
    var price := PriceCents(c.priceText);
    if !CanCalculate(c) || price.None? then c else c.(change := Some(c.payment - price.value))
  }

  /** The scan sheet's callback: the scanned amount is added to the payment. */
  function ScanAdded(c: Calc, amount: nat): (r: Calc)
    ensures r.payment == c.payment + amount
    ensures r.role == c.role && r.priceText == c.priceText && r.change == c.change
  {
    c.(payment := c.payment + amount)
  }

  /** Every amount the callback received, added in order. */
  function ScanAddedAll(c: Calc, amounts: seq<nat>): Calc
    decreases |amounts|
  {
    if amounts == [] then c else ScanAddedAll(ScanAdded(c, amounts[0]), amounts[1..])
  }

  /** The amounts a scan sheet handed to the calculator's callback. */
  function SheetAmounts(es: seq<ScanMoney.Event>): seq<nat> {
    var t := ScanMoney.Run(ScanMoney.Open(ScanMoney.ToCallback([])), es);
    match t.sink
    case ToCallback(xs) => xs
    case ToLedger(_) => []
  }

  /** One scan sheet raises the payment by nothing or by one banknote amount, and changes nothing else. */
  lemma ScanSheetPayment(c: Calc, es: seq<ScanMoney.Event>)
    ensures var r := ScanAddedAll(c, SheetAmounts(es));
      && r.role == c.role && r.priceText == c.priceText && r.change == c.change
      && (r.payment == c.payment || (r.payment - c.payment >= 500 && TruncEuros(r.payment - c.payment) in Banknotes))
  {
    ScanMoney.CallbackGetsAtMostOne(es);
    ScanMoney.AtMostOneDelivery(ScanMoney.Open(ScanMoney.ToCallback([])), es);
    var xs := SheetAmounts(es);
    if |xs| == 1 {
      assert xs[1..] == [];
      var t := ScanMoney.Run(ScanMoney.Open(ScanMoney.ToCallback([])), es);
      assert t.sink != ScanMoney.ToCallback([]);
      var a: nat, st: Ledger.Stamp :| TruncEuros(a) in Banknotes && t.sink == ScanMoney.Deliver(ScanMoney.ToCallback([]), a, st) && t.dismissed;
      assert t.sink.received == [a];
      assert a >= 500;
    }
  }

  /** `resetCalculation`, offered once a change is shown: price, payment and change cleared; the role stays. */
  function Reset(c: Calc): (r: Calc)
    ensures c.change.None? ==> r == c
    ensures c.change.Some? ==> r == Initial.(role := c.role)
  {
    if c.change.None? then c else c.(priceText := "", payment := 0, change := None)
  }

  /**
   * What the result panel shows: the message, and the suggestion line
   * only when change is due.
   */
  method Panel(c: Calc) returns (message: Option<string>, suggestion: Option<string>)
    ensures c.change.None? ==> message.None? && suggestion.None?
    ensures c.change.Some? ==> message == Some(ResultText(c.role, c.change.value))
    ensures suggestion.Some? <==> c.change.Some? && c.change.value > 0
    ensures suggestion.Some? ==> suggestion.value != NoChange
  {
    message, suggestion := None, None;
    if c.change.Some? {
      message := Some(ResultText(c.role, c.change.value));
      if c.change.value > 0 {
        var text := SuggestChange(c.change.value);
        suggestion := Some(text);
      }
    }
  }

  /** Once computed, the change plus the price gives back the payment. */
  lemma ChangeAccountsForPayment(c: Calc)
    requires CanCalculate(c) && PriceCents(c.priceText).Some?
    ensures CalculateChange(c).change.Some?
    ensures CalculateChange(c).change.value + PriceCents(c.priceText).value == c.payment
  {
  }

  /** A price typed with a decimal comma reads as the same amount as with a point. */
  lemma CommaPrice(text: string)
    requires ',' !in text
    ensures PriceCents(Replace(text, '.', ',')) == PriceCents(text)
  {
    ReplaceBack(text, '.', ',');
    ReplaceAbsent(text, ',', '.');
  }

  /** A price typed with a decimal comma gives the same change as with a point. */
  lemma CommaChange(c: Calc)
    requires ',' !in c.priceText
    ensures CalculateChange(c.(priceText := Replace(c.priceText, '.', ','))).change == CalculateChange(c).change
  {
    var d := c.(priceText := Replace(c.priceText, '.', ','));
    CommaPrice(c.priceText);
    assert CanCalculate(d) == CanCalculate(c);
    assert PriceCents(d.priceText) == PriceCents(c.priceText);
  }

  /** Two euros fifty of change is suggested as one two-euro coin and one fifty-cent coin. */
  lemma ChangeExample()
    ensures Breakdown(250) == [Part(200, 1), Part(50, 1)]
  {
    BreakdownFrom(6, 250);
    TwoFiftyTail();
  }

  /** The message for two euros fifty of change. */
  lemma ChangeTextExample()
    ensures ResultText(Buyer, 250) == "Change required: €2.50"
  {
    assert NatToString(2) == "2";
    assert Pad2(50) == "50" by {
      assert DigitChar(5) == '5' && DigitChar(0) == '0';
    }
    assert FormatAmount(250) == "2.50";
  }
}

=== FILE: catalog.dfy ===
/**
 * The denomination catalog: the fourteen euro face values the app knows,
 * the banknote subset the scan views accept, and `formattedDenomination`,
 * the label every view prints for a face value. Amounts are integer cents.
 */
module Catalog {
  import opened Text

  /** Face values in cents, smallest first: the manual-entry picker order. */
  const Ascending: seq<int> := [1, 2, 5, 10, 20, 50, 100, 200, 500, 1000, 2000, 5000, 10000, 20000]

  /** The same values largest first: the order the change suggestion walks. */
  const Descending: seq<int> := [20000, 10000, 5000, 2000, 1000, 500, 200, 100, 50, 20, 10, 5, 2, 1]

  predicate IsDenomination(amount: int) {
    amount in Ascending
  }

  /** The banknote values, in whole euros, that the scan views accept. */
  const Banknotes: set<int> := {5, 10, 20, 50, 100, 200}

  /** The catalog is fourteen strictly ascending values; the walk order is its reverse; banknotes are its paper values. */
  lemma CatalogShape()
    ensures |Ascending| == 14
    ensures forall i, j | 0 <= i < j < |Ascending| :: Ascending[i] < Ascending[j]
    ensures |Descending| == |Ascending|
    ensures forall i | 0 <= i < |Descending| :: Descending[i] == Ascending[|Ascending| - 1 - i]
    ensures forall e | e in Banknotes :: IsDenomination(e * 100)
    ensures forall i | 8 <= i < |Ascending| :: Ascending[i] % 100 == 0 && Ascending[i] / 100 in Banknotes
  {
    AscendingSorted();
    DescendingReversed();
    BanknotesInCatalog();
  }

  lemma AscendingSorted()
    ensures forall i, j | 0 <= i < j < |Ascending| :: Ascending[i] < Ascending[j]
  {
    forall i, j | 0 <= i < j < |Ascending|
      ensures Ascending[i] < Ascending[j]
    {
      var k := i;
      while k < j
        invariant i <= k <= j && Ascending[i] <= Ascending[k]
        invariant k > i ==> Ascending[i] < Ascending[k]
      {
        k := k + 1;
      }
    }
  }

  lemma DescendingReversed()
    ensures |Descending| == |Ascending|
    ensures forall i | 0 <= i < |Descending| :: Descending[i] == Ascending[|Ascending| - 1 - i]
  {
  }

  lemma BanknotesInCatalog()
    ensures forall e | e in Banknotes :: IsDenomination(e * 100)
    ensures forall i | 8 <= i < |Ascending| :: Ascending[i] % 100 == 0 && Ascending[i] / 100 in Banknotes
  {
  }

  /**
   * Swift's `Int(amount)` for an amount of euros given in cents: the euro
   * part, truncated toward zero.
   */
  function TruncEuros(cents: int): (e: int)
    ensures cents >= 0 ==> 0 <= cents - e * 100 < 100
    ensures cents < 0 ==> -100 < cents - e * 100 <= 0
  {
    if cents >= 0 then cents / 100 else -((-cents) / 100)
  }

  /**
   * `formattedDenomination`: fixed labels for the coin values up to two
   * euros, and "⌊amount⌋ euros" for every other amount, including amounts
   * outside the catalog.
   */
  function Label(amount: int): (r: string)
    ensures IsDenomination(amount) && amount < 100 ==>
              r == NatToString(amount) + (if amount == 1 then " cent" else " cents")
    ensures IsDenomination(amount) && amount >= 100 ==>
              r == NatToString(amount / 100) + (if amount == 100 then " euro" else " euros")
    ensures !IsDenomination(amount) ==> r == IntToString(TruncEuros(amount)) + " euros"
  {
    if amount < 100 then CentLabel(amount) else EuroLabel(amount)
  }

  /** The labels below one euro: the six cent coins, and the default for the rest. */
  function CentLabel(amount: int): (r: string)
    requires amount < 100
    ensures amount in {1, 2, 5, 10, 20, 50} ==>
              r == NatToString(amount) + (if amount == 1 then " cent" else " cents")
    ensures amount !in {1, 2, 5, 10, 20, 50} ==> r == IntToString(TruncEuros(amount)) + " euros"
  {
    if amount == 1 then "1 cent"
    else if amount == 2 then "2 cents"
    else if amount == 5 then "5 cents"
    else if amount == 10 then "10 cents"
    else if amount == 20 then "20 cents"
    else if amount == 50 then "50 cents"
    else IntToString(TruncEuros(amount)) + " euros"
  }

  /** The labels from one euro up: the one- and two-euro coins fixed, every other amount by the default. */
  function EuroLabel(amount: int): (r: string)
    requires amount >= 100
    ensures amount % 100 == 0 ==>
              r == NatToString(amount / 100) + (if amount == 100 then " euro" else " euros")
    ensures r == IntToString(TruncEuros(amount)) + (if amount == 100 then " euro" else " euros")
  {
    if amount == 100 then "1 euro"
    else if amount == 200 then "2 euros"
    else IntToString(TruncEuros(amount)) + " euros"
  }

  /** A catalog value's label is a number and a unit; the unit says cents or euros, and the two give the value back. */
  lemma LabelParts(a: int) returns (n: nat, unit: string)
    requires IsDenomination(a)
    ensures Label(a) == NatToString(n) + unit
    ensures |unit| > 1 && !IsDigit(unit[0])
    ensures unit[1] == 'c' <==> a < 100
    ensures a == if a < 100 then n else n * 100
  {
    if a < 100 {
      n, unit := a, if a == 1 then " cent" else " cents";
    } else {
      n, unit := a / 100, if a == 100 then " euro" else " euros";
    }
  }

  /** No two catalog values share a label. */
  lemma LabelsDistinct(a: int, b: int)
    requires IsDenomination(a) && IsDenomination(b)
    requires Label(a) == Label(b)
    ensures a == b
  {
    var na, sa := LabelParts(a);
    var nb, sb := LabelParts(b);
    NumberThenSuffix(na, sa, nb, sb);
  }
}

=== FILE: chart.dfy ===
/**
 * `DenominationChartView`: a ring chart and a legend with one slice per
 * denomination held, in ascending face value, each slice's size being its
 * share of the number of pieces, and a fixed colour per face value.
 * Percentages are reals; their "%.2f" rendering is not modelled.
 */
module DenominationChart {
  import opened Catalog
  import opened Tally
  import opened Ledger

  /** The chart colours: shades of gray (opacity in tenths) for the cent coins, named colours above. */
  datatype Colour = Gray(tenths: int) | Red | Orange | Yellow | Green | Blue | Purple | Pink | Teal | Black

  /** `color(for:)`: a colour per catalog value, black for anything else. */
  function ColourFor(d: int): (c: Colour)
    ensures c == Black <==> !IsDenomination(d)
    ensures c.Gray? <==> IsDenomination(d) && d < 100
    ensures c.Gray? ==> 2 <= c.tenths <= 7
  {
    if d == 1 then Gray(2)
    else if d == 2 then Gray(3)
    else if d == 5 then Gray(4)
    else if d == 10 then Gray(5)
    else if d == 20 then Gray(6)
    else if d == 50 then Gray(7)
    else if d == 100 then Red
    else if d == 200 then Orange
    else if d == 500 then Yellow
    else if d == 1000 then Green
    else if d == 2000 then Blue
    else if d == 5000 then Purple
    else if d == 10000 then Pink
    else if d == 20000 then Teal
    else Black
  }

  /** The coins get lighter gray the smaller they are: the opacity grows with the face value. */
  lemma GrayGrowsWithValue(a: int, b: int)
    requires ColourFor(a).Gray? && ColourFor(b).Gray? && a < b
    ensures ColourFor(a).tenths < ColourFor(b).tenths
  {
  }

  /** Two different catalog values never share a colour, so every slice can be told apart. */
  lemma ColoursDistinct(a: int, b: int)
    requires IsDenomination(a) && IsDenomination(b) && a != b
    ensures ColourFor(a) != ColourFor(b)
  {
  }

  /** `totalDenominationCount`: the number of pieces, summed over the dictionary. */
  method TotalCount(m: map<int, int>) returns (n: int)
    ensures n == SumBy(m, Quantity)
    ensures PositiveCounts(m) ==> n >= |m| && (n == 0 <==> m == map[])
  {
    n := FoldMap(m, Quantity);
    CountFacts(m);
  }

  lemma CountFacts(m: map<int, int>)
    ensures PositiveCounts(m) ==> SumBy(m, Quantity) >= |m| && (SumBy(m, Quantity) == 0 <==> m == map[])
  {
    if PositiveCounts(m) {
      PiecesAtLeastKeys(m);
    }
  }

  /** With every count positive, there are at least as many pieces as keys. */
  lemma {:induction false} PiecesAtLeastKeys(m: map<int, int>)
    requires PositiveCounts(m)
    ensures SumBy(m, Quantity) >= |m|
    decreases |m|
  {
    if |m| > 0 {
      var k := Pick(m);
      SumByRemove(m, Quantity, k);
      assert (m - {k}).Keys == m.Keys - {k};
      PiecesAtLeastKeys(m - {k});
    }
  }

  /** One slice's share, in percent, of `total` pieces; 0 when there are no pieces. */
  function Percentage(count: int, total: int): (p: real)
    ensures total <= 0 ==> p == 0.0
    ensures total > 0 ==> p * total as real == count as real * 100.0
    ensures total > 0 && 0 <= count <= total ==> 0.0 <= p <= 100.0
  {
    if total > 0 then
      var p := count as real * 100.0 / total as real;
      PercentBounds(count, total, p);
      p
    else 0.0
  }

  lemma PercentBounds(count: int, total: int, p: real)
    requires total > 0 && p == count as real * 100.0 / total as real
    ensures p * total as real == count as real * 100.0
    ensures 0 <= count <= total ==> 0.0 <= p <= 100.0
  {
    if 0 <= count <= total {
      if p > 100.0 {
        assert p * total as real > 100.0 * total as real;
      }
    }
  }

  /** The shares of a list of entries, added up front to back. */
  function PercentSum(es: seq<Entry>, total: int): real
    decreases |es|
  {
    if es == [] then 0.0 else Percentage(es[0].1, total) + PercentSum(es[1..], total)
  }

  /** The shares add up to the list's pieces, in percent of `total`. */
  lemma {:induction false} PercentSumScales(es: seq<Entry>, total: int)
    requires total > 0
    ensures PercentSum(es, total) * total as real == SeqSum(es, Quantity) as real * 100.0
    decreases |es|
  {
    if es != [] {
      PercentSumScales(es[1..], total);
      var a := Percentage(es[0].1, total);
      var b := PercentSum(es[1..], total);
      assert (a + b) * total as real == a * total as real + b * total as real;
    }
  }

  /** One slice of the chart and its legend entry. */
  datatype Slice = Slice(denomination: int, caption: string, colour: Colour, percent: real)

  /** The chart for a dictionary: no slices when it is empty, otherwise one per key in ascending order. */
  method Slices(m: map<int, int>) returns (ss: seq<Slice>, es: seq<Entry>)
    ensures StrictlyAscending(es) && EntriesOf(es, m) && |ss| == |es| == |m|
    ensures forall i | 0 <= i < |es| :: ss[i].denomination == es[i].0 && ss[i].caption == Label(es[i].0) && ss[i].colour == ColourFor(es[i].0)
    ensures forall i | 0 <= i < |es| :: ss[i].percent == Percentage(es[i].1, SumBy(m, Quantity))
  {
    es := SortedEntries(m);
    var total := TotalCount(m);
    ss := seq(|es|, i requires 0 <= i < |es| => Slice(es[i].0, Label(es[i].0), ColourFor(es[i].0), Percentage(es[i].1, total)));
  }

  /** With every count positive, the slices of a non-empty dictionary fill the whole ring: they add up to 100%. */
  lemma SlicesFillTheRing(m: map<int, int>, es: seq<Entry>)
    requires PositiveCounts(m) && m != map[]
    requires StrictlyAscending(es) && EntriesOf(es, m)
    ensures PercentSum(es, SumBy(m, Quantity)) == 100.0
    ensures forall i | 0 <= i < |es| :: Percentage(es[i].1, SumBy(m, Quantity)) > 0.0
  {
    var total := SumBy(m, Quantity);
    CountFacts(m);
    assert total > 0 by {
      assert |m| > 0;
    }
    SeqSumOfEntries(es, m, Quantity);
    SharesOfAllPieces(es, total);
    forall i | 0 <= i < |es|
      ensures Percentage(es[i].1, total) > 0.0
    {
      PositiveShare(es[i].1, total);
    }
  }

  /** Shares of a list that holds all `total` pieces add up to 100%. */
  lemma SharesOfAllPieces(es: seq<Entry>, total: int)
    requires total > 0 && SeqSum(es, Quantity) == total
    ensures PercentSum(es, total) == 100.0
  {
    PercentSumScales(es, total);
    WholeIsHundred(PercentSum(es, total), SeqSum(es, Quantity), total);
  }

  lemma WholeIsHundred(s: real, pieces: int, total: int)
    requires total > 0 && pieces == total && s * total as real == pieces as real * 100.0
    ensures s == 100.0
  {
    var t := total as real;
    assert (s - 100.0) * t == 0.0;
    ZeroFactor(s - 100.0, t);
  }

  lemma ZeroFactor(x: real, t: real)
    requires t > 0.0 && x * t == 0.0
    ensures x == 0.0
  {
  }

  lemma PositiveShare(count: int, total: int)
    requires count > 0 && total > 0
    ensures Percentage(count, total) > 0.0
  {
  }
}

=== FILE: home_scan.dfy ===
/**
 * `HomeView`, the always-open camera screen: capture, then cancel or add.
 * Unlike the scan sheet it never closes, so one screen can add many
 * banknotes, one per capture. It reads the label's digits as a whole
 * number of euros.
 */
module HomeScan {
  import opened Wrappers
  import opened Catalog
  import opened Recognition
  import opened Ledger
  import ScanMoney

  /** What the text at the top of the screen says. */
  datatype Status = Waiting | Showing(euros: int) | TryAgain

  /** `isCaptured`, `capturedAmount` (whole euros), the status line, and the wallet the screen adds to. */
  datatype Home = Home(captured: bool, pending: Option<nat>, status: Status, wallet: Wallet)

  function Open(w: Wallet): (h: Home)
    ensures !h.captured && h.pending.None? && h.wallet == w
  {
    Home(false, None, Waiting, w)
  }

  datatype Event =
    | PressCapture(frame: Option<Recognition>)
    | PressCancel
    | PressConfirm(stamp: Stamp)

  predicate Offered(h: Home, e: Event) {
    if e.PressCapture? then !h.captured else h.captured
  }

  /**
   * The screen unwraps the classifier's label before testing it, so a frame
   * the classifier returns no label for stops the app; a press that
   * classifies a frame must carry a labelled one.
   */
  predicate Labelled(e: Event) {
    e.PressCapture? && e.frame.Some? ==> e.frame.value.identifier.Some?
  }

  /** No amount is held outside a capture, and a held amount is a banknote value the status line shows. */
  predicate Consistent(h: Home) {
    && (!h.captured ==> h.pending.None?)
    && (h.pending.Some? ==> h.pending.value in Banknotes && h.status == Showing(h.pending.value))
  }

  function Classify(h: Home, r: Recognition): (t: Home)
    requires r.identifier.Some?
    ensures HomeGate(r).Accept? ==> t == h.(pending := Some(HomeGate(r).amount), status := Showing(HomeGate(r).amount))
    ensures HomeGate(r).Reject? ==> !t.captured && t.status == TryAgain && t.pending == h.pending
    ensures t.wallet == h.wallet
  {
    match HomeGate(r)
    case Accept(amount) => h.(pending := Some(amount), status := Showing(amount))
    case Reject(_) => h.(captured := false, status := TryAgain)
  }

  /** One button press. Confirm adds the held amount, in cents, and returns to waiting. */
  function Step(h: Home, e: Event): (t: Home)
    requires Offered(h, e) ==> Labelled(e)
    ensures !Offered(h, e) ==> t == h
    ensures Consistent(h) ==> Consistent(t)
    ensures t.wallet != h.wallet ==> Offered(h, e) && e.PressConfirm? && h.pending.Some?
    ensures Offered(h, e) && e.PressConfirm? && h.pending.Some? ==> t.wallet == AddMoney(h.wallet, h.pending.value * 100, e.stamp)
    ensures Offered(h, e) && e.PressCapture? && e.frame.None? ==> t == h.(captured := true)
    ensures Offered(h, e) && e.PressCapture? && e.frame.Some? ==> t == Classify(h.(captured := true), e.frame.value)
    ensures Offered(h, e) && !e.PressCapture? ==> t == Open(t.wallet)
  {
    if !Offered(h, e) then h
    else
      match e
      case PressCapture(frame) =>
        var c := h.(captured := true);
        if frame.None? then c else Classify(c, frame.value)
      case PressCancel =>
        Open(h.wallet)
      case PressConfirm(stamp) =>
        var w := if h.pending.Some? then AddMoney(h.wallet, h.pending.value * 100, stamp) else h.wallet;
        Open(w)
  }

  function Run(h: Home, es: seq<Event>): Home
    requires forall i | 0 <= i < |es| :: Labelled(es[i])
    decreases |es|
  {
    if es == [] then h else Run(Step(h, es[0]), es[1..])
  }

  /**
   * Any sequence of presses keeps the screen consistent, keeps the ledger
   * invariant, never lowers the total, and adds only catalog banknotes.
   */
  lemma {:induction false} RunKeepsWallet(h: Home, es: seq<Event>)
    requires forall i | 0 <= i < |es| :: Labelled(es[i])
    requires Consistent(h) && Valid(h.wallet) && CatalogOnly(h.wallet)
    ensures var t := Run(h, es);
      && Consistent(t) && Valid(t.wallet) && CatalogOnly(t.wallet)
      && t.wallet.total >= h.wallet.total
      && |t.wallet.history| <= |h.wallet.history| + |es|
    decreases |es|
  {
    if es != [] {
      var h1 := Step(h, es[0]);
      if h1.wallet != h.wallet {
        var a := h.pending.value;
        AddPreservesValid(h.wallet, a * 100, es[0].stamp);
        assert IsDenomination(a * 100) by { CatalogShape(); }
      }
      RunKeepsWallet(h1, es[1..]);
    }
  }

  /** Two captures and two confirms of readable banknotes add both. */
  lemma TwoBanknotes(w: Wallet, r1: Recognition, r2: Recognition, s1: Stamp, s2: Stamp)
    requires r1.identifier.Some? && HomeGate(r1).Accept?
    requires r2.identifier.Some? && HomeGate(r2).Accept?
    ensures var es := [PressCapture(Some(r1)), PressConfirm(s1), PressCapture(Some(r2)), PressConfirm(s2)];
      Run(Open(w), es).wallet.total == w.total + (HomeGate(r1).amount + HomeGate(r2).amount) * 100
  {
    var es := [PressCapture(Some(r1)), PressConfirm(s1), PressCapture(Some(r2)), PressConfirm(s2)];
    var h1 := Step(Open(w), es[0]);
    var h2 := Step(h1, es[1]);
    var h3 := Step(h2, es[2]);
    var h4 := Step(h3, es[3]);
    assert h4.wallet.total == w.total + (HomeGate(r1).amount + HomeGate(r2).amount) * 100;
    assert Run(Open(w), es) == Run(h1, es[1..]);
    assert Run(h1, es[1..]) == Run(h2, es[2..]) by { assert es[1..][1..] == es[2..]; }
    assert Run(h2, es[2..]) == Run(h3, es[3..]) by { assert es[2..][1..] == es[3..]; }
    assert Run(h3, es[3..]) == Run(h4, []) by { assert es[3..][1..] == []; }
  }

  /**
   * On a label without a '.', capturing and confirming on this screen adds
   * the same amount to the wallet as doing so on the scan sheet.
   */
  lemma AgreesWithScanSheet(w: Wallet, r: Recognition, stamp: Stamp)
    requires r.identifier.Some? && '.' !in r.identifier.value
    ensures var t := ScanMoney.Run(ScanMoney.Open(ScanMoney.ToLedger(w)),
                                   [ScanMoney.PressCapture(Some(r)), ScanMoney.PressConfirm(stamp)]);
      t.sink == ScanMoney.ToLedger(Run(Open(w), [PressCapture(Some(r)), PressConfirm(stamp)]).wallet)
  {
    GatesAgreeWithoutDot(r);
    var es := [PressCapture(Some(r)), PressConfirm(stamp)];
    var h1 := Step(Open(w), es[0]);
    var h2 := Step(h1, es[1]);
    assert Run(Open(w), es) == Run(h1, es[1..]);
    assert Run(h1, es[1..]) == h2 by { assert es[1..][1..] == []; }
    var ses := [ScanMoney.PressCapture(Some(r)), ScanMoney.PressConfirm(stamp)];
    var s0 := ScanMoney.Open(ScanMoney.ToLedger(w));
    var s1 := ScanMoney.Step(s0, ses[0]);
    var s2 := ScanMoney.Step(s1, ses[1]);
    assert ScanMoney.Run(s0, ses) == ScanMoney.Run(s1, ses[1..]);
    assert ScanMoney.Run(s1, ses[1..]) == s2 by { assert ses[1..][1..] == []; }
    if HomeGate(r).Accept? {
      ScanMoney.CaptureThenConfirm(ScanMoney.ToLedger(w), r, stamp);
    } else {
      assert s1.pending.None?;
    }
  }
}

=== FILE: ledger.dfy ===
/**
 * The cash ledger (`WalletManager`): how many pieces of each denomination
 * the user holds, the running `totalBalance`, the transaction history
 * (newest first) and the savings goal. Every operation is a pure function
 * from the old wallet to the new one; persistence writes, haptics and
 * accessibility announcements have no effect on this state and are not
 * part of it.
 */
module Ledger {
  import opened Wrappers
  import opened Tally
  import Catalog

  /** `TransactionType`. */
  datatype Kind = Add | Remove

  /** The identifier and time a new transaction carries (`UUID()` and `Date()`, supplied by the caller). */
  datatype Stamp = Stamp(id: nat, date: int)

  datatype Transaction = Transaction(id: nat, amount: int, kind: Kind, date: int)

  /**
   * Amounts are cents. The dictionary's counts are Swift `Int`s, so nothing
   * in the type stops a decoded count from being zero or negative; `Valid`
   * says which wallets the operations are meant to keep.
   */
  datatype Wallet = Wallet(denominations: map<int, int>, total: int, history: seq<Transaction>, goal: int)

  /** `moneyDenominations[d, default: 0]`. */
  function Count(w: Wallet, d: int): int {
    if d in w.denominations then w.denominations[d] else 0
  }

  ghost predicate PositiveCounts(m: map<int, int>) {
    forall d | d in m :: m[d] > 0
  }

  /** The ledger invariant: the total is exactly Σ denomination × count, and no stored count is zero. */
  ghost predicate Valid(w: Wallet) {
    w.total == Balance(w.denominations) && PositiveCounts(w.denominations)
  }

  /** `addMoney`: one more piece of `d` (no validation of `d`), a larger total, and an `.add` record in front. */
  function AddMoney(w: Wallet, d: int, stamp: Stamp): (r: Wallet)
    ensures Count(r, d) == Count(w, d) + 1
    ensures forall k | k != d :: Count(r, k) == Count(w, k)
    ensures r.denominations.Keys == w.denominations.Keys + {d}
    ensures r.total == w.total + d
    ensures |r.history| == |w.history| + 1
    ensures r.history[0] == Transaction(stamp.id, d, Add, stamp.date) && r.history[1..] == w.history
    ensures r.goal == w.goal
  {
    Wallet(w.denominations[d := Count(w, d) + 1], w.total + d,
           [Transaction(stamp.id, d, Add, stamp.date)] + w.history, w.goal)
  }

  /** The guard of `removeMoney`: `d` is present with a positive count. */
  predicate CanRemove(w: Wallet, d: int) {
    d in w.denominations && w.denominations[d] > 0
  }

  /**
   * `removeMoney`: without a piece of `d` nothing at all changes; otherwise
   * one piece fewer (the key disappears when its count reaches zero), a
   * smaller total, and a `.remove` record in front.
   */
  function RemoveMoney(w: Wallet, d: int, stamp: Stamp): (r: Wallet)
    ensures !CanRemove(w, d) ==> r == w
    ensures CanRemove(w, d) ==>
              && Count(r, d) == Count(w, d) - 1
              && (forall k | k != d :: Count(r, k) == Count(w, k))
              && r.denominations.Keys == (if Count(w, d) == 1 then w.denominations.Keys - {d} else w.denominations.Keys)
              && r.total == w.total - d
              && |r.history| == |w.history| + 1
              && r.history[0] == Transaction(stamp.id, d, Remove, stamp.date)
              && r.history[1..] == w.history
              && r.goal == w.goal
  {
    if CanRemove(w, d) then
      var left := w.denominations[d] - 1;
      var m := if left == 0 then w.denominations - {d} else w.denominations[d := left];
      Wallet(m, w.total - d, [Transaction(stamp.id, d, Remove, stamp.date)] + w.history, w.goal)
    else
      w
  }

  /** `clearAllDenominations`: no pieces and a zero total; history and goal are kept. */
  function ClearAll(w: Wallet): (r: Wallet)
    ensures forall d :: Count(r, d) == 0
    ensures r.total == 0
    ensures r.history == w.history && r.goal == w.goal
  {
    w.(denominations := map[], total := 0)
  }

  /** `clearTransactionHistory`: an empty history; pieces, total and goal are kept. */
  function ClearHistory(w: Wallet): (r: Wallet)
    ensures r.history == []
    ensures r.denominations == w.denominations && r.total == w.total && r.goal == w.goal
  {
    w.(history := [])
  }

  /** `setSavingsGoal`: any value is stored, negative or zero included. */
  function SetGoal(w: Wallet, goal: int): (r: Wallet)
    ensures r.goal == goal
    ensures r.denominations == w.denominations && r.total == w.total && r.history == w.history
  {
    w.(goal := goal)
  }

  /** `loadTransactions`: a history that decoded replaces the current one; otherwise nothing changes. */
  function LoadTransactions(w: Wallet, saved: Option<seq<Transaction>>): (r: Wallet)
    ensures saved.None? ==> r == w
    ensures saved.Some? ==> r.history == saved.value
    ensures r.denominations == w.denominations && r.total == w.total && r.goal == w.goal
  {
    match saved
    case None => w
    case Some(h) => w.(history := h)
  }

  /**
   * `loadSavedDenominations`: a dictionary that decoded replaces the current
   * one and the total is recomputed from it; otherwise nothing changes.
   */
  method LoadDenominations(w: Wallet, saved: Option<map<int, int>>) returns (r: Wallet)
    ensures saved.None? ==> r == w
    ensures saved.Some? ==> r.denominations == saved.value && r.total == Balance(saved.value)
    ensures r.history == w.history && r.goal == w.goal
  {
    match saved {
      case None =>
        r := w;
      case Some(m) =>
        var total := FoldMap(m, Value);
        r := w.(denominations := m, total := total);
    }
  }

  /** `init`: the stored goal (0 when none was stored), then the saved dictionary, then the saved history. */
  method Startup(savedMap: Option<map<int, int>>, savedHistory: Option<seq<Transaction>>, savedGoal: int)
    returns (r: Wallet)
    ensures r.denominations == savedMap.GetOr(map[])
    ensures r.total == Balance(r.denominations)
    ensures r.history == savedHistory.GetOr([])
    ensures r.goal == savedGoal
  {
    r := Wallet(map[], 0, [], savedGoal);
    r := LoadDenominations(r, savedMap);
    r := LoadTransactions(r, savedHistory);
  }

  /** A wallet started from a saved dictionary without zero counts satisfies the ledger invariant. */
  lemma StartupValid(r: Wallet, savedMap: Option<map<int, int>>)
    requires r.denominations == savedMap.GetOr(map[]) && r.total == Balance(r.denominations)
    requires savedMap.Some? ==> PositiveCounts(savedMap.value)
    ensures Valid(r)
  {
  }

  lemma AddPreservesValid(w: Wallet, d: int, stamp: Stamp)
    requires Valid(w)
    ensures Valid(AddMoney(w, d, stamp))
  {
    AddKeepsBalance(w, d, stamp);
    AddKeepsPositive(w, d, stamp);
  }

  lemma AddKeepsBalance(w: Wallet, d: int, stamp: Stamp)
    requires w.total == Balance(w.denominations)
    ensures AddMoney(w, d, stamp).total == Balance(AddMoney(w, d, stamp).denominations)
  {
    AddedMap(w, d, stamp);
    BalanceAfterAdd(w.denominations, d);
  }

  /** One more piece of `d` adds `d` to the balance. */
  lemma BalanceAfterAdd(m: map<int, int>, d: int)
    ensures Balance(m[d := (if d in m then m[d] else 0) + 1]) == Balance(m) + d
  {
    var c := if d in m then m[d] else 0;
    SumByUpdate(m, Value, d, c + 1);
    ProductStep(d, c);
  }

  lemma AddKeepsPositive(w: Wallet, d: int, stamp: Stamp)
    requires PositiveCounts(w.denominations)
    ensures PositiveCounts(AddMoney(w, d, stamp).denominations)
  {
    AddedMap(w, d, stamp);
  }

  lemma AddedMap(w: Wallet, d: int, stamp: Stamp)
    ensures AddMoney(w, d, stamp).denominations == w.denominations[d := Count(w, d) + 1]
    ensures AddMoney(w, d, stamp).total == w.total + d
  {
  }

  lemma MulStep(n: int, d: int)
    ensures (n + 1) * d == d + n * d
  {
  }

  lemma ProductStep(d: int, c: int)
    ensures Value(d, c + 1) == Value(d, c) + d
    ensures Value(d, c - 1) == Value(d, c) - d
  {
  }

  lemma RemovePreservesValid(w: Wallet, d: int, stamp: Stamp)
    requires Valid(w)
    ensures Valid(RemoveMoney(w, d, stamp))
  {
    if CanRemove(w, d) {
      var m := w.denominations;
      assert RemoveMoney(w, d, stamp).denominations == Removed(m, d);
      BalanceAfterRemove(m, d);
    }
  }

  /** The dictionary after one piece of `d` is taken out: the key goes when its count reaches zero. */
  function Removed(m: map<int, int>, d: int): map<int, int>
    requires d in m
  {
    if m[d] == 1 then m - {d} else m[d := m[d] - 1]
  }

  /** One piece of `d` fewer takes `d` off the balance and keeps every count positive. */
  lemma BalanceAfterRemove(m: map<int, int>, d: int)
    requires d in m && m[d] > 0
    ensures Balance(Removed(m, d)) == Balance(m) - d
    ensures PositiveCounts(m) ==> PositiveCounts(Removed(m, d))
  {
    var c := m[d];
    if c == 1 {
      SumByRemove(m, Value, d);
    } else {
      SumByUpdate(m, Value, d, c - 1);
      ProductStep(d, c);
    }
  }

  lemma ClearAllValid(w: Wallet)
    ensures Valid(ClearAll(w))
  {
  }

  /** Two dictionaries with the same keys and the same count under every key are equal. */
  lemma SameCounts(a: Wallet, b: Wallet)
    requires a.denominations.Keys == b.denominations.Keys
    requires forall k :: Count(a, k) == Count(b, k)
    ensures a.denominations == b.denominations
  {
    forall k | k in a.denominations
      ensures a.denominations[k] == b.denominations[k]
    {
      assert Count(a, k) == Count(b, k);
    }
  }

  /** `addMoney(d)` then `removeMoney(d)` restores the pieces and the total; the history grows by two. */
  lemma AddThenRemove(w: Wallet, d: int, s1: Stamp, s2: Stamp)
    requires PositiveCounts(w.denominations)
    ensures var r := RemoveMoney(AddMoney(w, d, s1), d, s2);
      && r.denominations == w.denominations
      && r.total == w.total
      && |r.history| == |w.history| + 2
      && r.history[2..] == w.history
  {
    var a := AddMoney(w, d, s1);
    var r := RemoveMoney(a, d, s2);
    assert CanRemove(a, d);
    forall k
      ensures Count(r, k) == Count(w, k)
    {
    }
    SameCounts(r, w);
  }

  /** One `addMoney(d)` per stamp. */
  function AddTimes(w: Wallet, d: int, stamps: seq<Stamp>): Wallet
    decreases |stamps|
  {
    if stamps == [] then w else AddTimes(AddMoney(w, d, stamps[0]), d, stamps[1..])
  }

  /** One `removeMoney(d)` per stamp. */
  function RemoveTimes(w: Wallet, d: int, stamps: seq<Stamp>): Wallet
    decreases |stamps|
  {
    if stamps == [] then w else RemoveTimes(RemoveMoney(w, d, stamps[0]), d, stamps[1..])
  }

  lemma {:induction false} AddTimesEffect(w: Wallet, d: int, stamps: seq<Stamp>)
    ensures var r := AddTimes(w, d, stamps);
      && Count(r, d) == Count(w, d) + |stamps|
      && (forall k | k != d :: Count(r, k) == Count(w, k))
      && r.denominations.Keys == (if stamps == [] then w.denominations.Keys else w.denominations.Keys + {d})
      && r.total == w.total + |stamps| * d
      && |r.history| == |w.history| + |stamps|
    decreases |stamps|
  {
    if stamps != [] {
      AddTimesEffect(AddMoney(w, d, stamps[0]), d, stamps[1..]);
      MulStep(|stamps[1..]|, d);
    }
  }

  lemma {:induction false} RemoveTimesEffect(w: Wallet, d: int, stamps: seq<Stamp>)
    requires d in w.denominations && w.denominations[d] >= |stamps|
    ensures var r := RemoveTimes(w, d, stamps);
      && Count(r, d) == Count(w, d) - |stamps|
      && (forall k | k != d :: Count(r, k) == Count(w, k))
      && r.denominations.Keys == (if Count(w, d) == |stamps| && stamps != [] then w.denominations.Keys - {d} else w.denominations.Keys)
      && r.total == w.total - |stamps| * d
      && |r.history| == |w.history| + |stamps|
    decreases |stamps|
  {
    if stamps != [] {
      var w' := RemoveMoney(w, d, stamps[0]);
      assert CanRemove(w, d);
      MulStep(|stamps[1..]|, d);
      if |stamps| > 1 {
        RemoveTimesEffect(w', d, stamps[1..]);
      } else {
        assert stamps[1..] == [];
      }
    }
  }

  /** n additions of `d` followed by n removals of `d` restore the pieces and the total exactly. */
  lemma AddRemoveTimesRoundTrip(w: Wallet, d: int, adds: seq<Stamp>, removes: seq<Stamp>)
    requires PositiveCounts(w.denominations)
    requires |adds| == |removes|
    ensures var r := RemoveTimes(AddTimes(w, d, adds), d, removes);
      && r.denominations == w.denominations
      && r.total == w.total
      && |r.history| == |w.history| + 2 * |adds|
  {
    if adds != [] {
      var a := AddTimes(w, d, adds);
      AddTimesEffect(w, d, adds);
      RemoveTimesEffect(a, d, removes);
      var r := RemoveTimes(a, d, removes);
      forall k
        ensures Count(r, k) == Count(w, k)
      {
      }
      SameCounts(r, w);
    }
  }

  /** The ledger operations a user can trigger once the wallet is loaded. */
  datatype Op =
    | AddOp(d: int, stamp: Stamp)
    | RemoveOp(d: int, stamp: Stamp)
    | ClearAllOp
    | ClearHistoryOp
    | SetGoalOp(goal: int)
    | LoadHistoryOp(saved: Option<seq<Transaction>>)

  function Apply(w: Wallet, op: Op): Wallet {
    match op
    case AddOp(d, s) => AddMoney(w, d, s)
    case RemoveOp(d, s) => RemoveMoney(w, d, s)
    case ClearAllOp => ClearAll(w)
    case ClearHistoryOp => ClearHistory(w)
    case SetGoalOp(g) => SetGoal(w, g)
    case LoadHistoryOp(h) => LoadTransactions(w, h)
  }

  function ApplyAll(w: Wallet, ops: seq<Op>): Wallet
    decreases |ops|
  {
    if ops == [] then w else ApplyAll(Apply(w, ops[0]), ops[1..])
  }

  /** After any sequence of operations the total is still Σ denomination × count and no count is zero. */
  lemma {:induction false} ValidAfterOps(w: Wallet, ops: seq<Op>)
    requires Valid(w)
    ensures Valid(ApplyAll(w, ops))
    decreases |ops|
  {
    if ops != [] {
      match ops[0] {
        case AddOp(d, s) => AddPreservesValid(w, d, s);
        case RemoveOp(d, s) => RemovePreservesValid(w, d, s);
        case _ =>
      }
      ValidAfterOps(Apply(w, ops[0]), ops[1..]);
    }
  }

  /** Every key of the wallet is a catalog value. */
  predicate CatalogOnly(w: Wallet) {
    forall d | d in w.denominations :: Catalog.IsDenomination(d)
  }
}

=== FILE: manual_entry.dfy ===
/**
 * `ManualEntryView`: a wheel picker over the fourteen catalog values,
 * preselected at 5 euros, an Add button that adds one piece of the chosen
 * value, and the balance line in this screen's own amount format.
 */
module ManualEntry {
  import opened Text
  import opened Catalog
  import opened Ledger
  import WalletScreen

  /** The picker's initial selection: 5 euros. */
  const Default: int := 500

  lemma DefaultIsChoice()
    ensures IsDenomination(Default)
  {
  }

  /** The picker's rows, in catalog order. */
  function PickerRows(): (rows: seq<string>)
    ensures |rows| == |Ascending|
    ensures forall i | 0 <= i < |rows| :: rows[i] == Label(Ascending[i])
  {
    seq(|Ascending|, i requires 0 <= i < |Ascending| => Label(Ascending[i]))
  }

  /** No two picker rows read the same, so every row names one value. */
  lemma PickerRowsDistinct(i: int, j: int)
    requires 0 <= i < j < |PickerRows()|
    ensures PickerRows()[i] != PickerRows()[j]
  {
    CatalogShape();
    if PickerRows()[i] == PickerRows()[j] {
      LabelsDistinct(Ascending[i], Ascending[j]);
      assert false;
    }
  }

  /**
   * The Add button: one piece of the selected value. The picker can only
   * hold a catalog value, so the ledger keeps only catalog keys.
   */
  function PressAdd(w: Wallet, selected: int, stamp: Stamp): (r: Wallet)
    requires IsDenomination(selected)
    ensures CatalogOnly(w) ==> CatalogOnly(r)
    ensures Count(r, selected) == Count(w, selected) + 1
    ensures r.total == w.total + selected
  {
    AddMoney(w, selected, stamp)
  }

  /** Adding from the picker keeps the ledger invariant. */
  lemma PressAddValid(w: Wallet, selected: int, stamp: Stamp)
    requires IsDenomination(selected) && Valid(w)
    ensures Valid(PressAdd(w, selected, stamp))
  {
    AddPreservesValid(w, selected, stamp);
  }

  /**
   * This screen's `formattedAmount`: everything below one euro in cents
   * (zero included), "1 euro", whole euros without decimals, and two
   * decimals otherwise.
   */
  function ManualAmount(cents: int): (r: string)
    ensures cents != 0 ==> r == WalletScreen.WalletAmount(cents)
    ensures cents == 0 ==> r == "0 cents"
  {
    if cents < 100 then (if cents == 1 then "1 cent" else IntToString(cents) + " cents")
    else if cents == 100 then "1 euro"
    else if cents % 100 == 0 then NatToString(cents / 100) + " euros"
    else NatToString(cents / 100) + "." + Pad2(cents % 100) + " euros"
  }

  /** The two screens' balance formats agree on every amount except zero, which reads "0 cents" here and "0 euro" on the wallet. */
  lemma AmountFormatsAgree(cents: int)
    ensures ManualAmount(cents) == WalletScreen.WalletAmount(cents) <==> cents != 0
  {
    if cents == 0 {
      assert ManualAmount(0) == "0 cents";
      assert ManualAmount(0)[2] != WalletScreen.WalletAmount(0)[2];
    }
  }
}

=== FILE: recognition.dfy ===
/**
 * The recognition gates: how a classifier answer (top label and its
 * confidence) becomes a banknote amount or a rejection. The two scanning
 * views read the label differently: ScanMoneyView keeps digits and '.'
 * and reads a decimal number, HomeView keeps digits only and reads an
 * integer. Both require a confidence of at least 0.8 and a whole-euro
 * value in {5, 10, 20, 50, 100, 200}.
 */
module Recognition {
  import opened Wrappers
  import opened Text
  import opened Catalog

  /** One classifier answer for one frame: the top label, if any, and its confidence. */
  datatype Recognition = Recognition(identifier: Option<string>, confidence: real)

  /** The confidence below which a reading is refused. */
  const Threshold: real := 0.8

  /** Why a reading was refused. The views show the same "try again" message for all of them. */
  datatype Reason = NoLabel | Unparseable | LowConfidence | NotBanknote

  datatype Decision = Accept(amount: nat) | Reject(reason: Reason)

  predicate IsDigitOrDot(c: char) {
    IsDigit(c) || c == '.'
  }

  /** ScanMoneyView's reading of a label: its digits and dots, as a decimal number of euros, in cents. */
  function ScanReading(text: string): (r: Option<nat>)
    ensures (forall i | 0 <= i < |text| :: IsDigitOrDot(text[i])) ==> r == ParseCents(text)
    ensures Filter(text, IsDigitOrDot) == [] ==> r.None?
  {
    ParseCents(Filter(text, IsDigitOrDot))
  }

  /**
   * ScanMoneyView's gate. An accepted amount is the untruncated reading; only
   * its whole-euro part has to be a banknote value.
   */
  function ScanGate(r: Recognition): (d: Decision)
    ensures d.Accept? <==>
              && r.identifier.Some?
              && ScanReading(r.identifier.value).Some?
              && r.confidence >= Threshold
              && ScanReading(r.identifier.value).value / 100 in Banknotes
    ensures d.Accept? ==> ScanReading(r.identifier.value) == Some(d.amount) && 500 <= d.amount < 20100
    ensures d == Reject(LowConfidence) ==> r.confidence < Threshold
  {
    match r.identifier
    case None => Reject(NoLabel)
    case Some(text) =>
      match ScanReading(text)
      case None => Reject(Unparseable)
      case Some(amount) =>
        if r.confidence < Threshold then Reject(LowConfidence)
        else if TruncEuros(amount) !in Banknotes then Reject(NotBanknote)
        else Accept(amount)
  }

  /** The largest value of a 64-bit Swift `Int`. */
  const IntMax: nat := 0x7FFF_FFFF_FFFF_FFFF

  /**
   * HomeView's reading of a label: all its decimal digits run together, as
   * a Swift `Int`. No digits, or a value too large for `Int`, reads as None.
   */
  function HomeReading(text: string): (n: Option<nat>)
    ensures n.Some? ==> n.value <= IntMax
    ensures n.Some? ==> Filter(text, IsDigit) != [] && n.value == DigitsValue(Filter(text, IsDigit))
    ensures Filter(text, IsDigit) != [] && DigitsValue(Filter(text, IsDigit)) <= IntMax ==> n.Some?
  {
    var digits := Filter(text, IsDigit);
    if digits == [] || DigitsValue(digits) > IntMax then None else Some(DigitsValue(digits))
  }

  /**
   * HomeView's gate. The label must be present: the view force-unwraps it
   * before looking at it.
   */
  function HomeGate(r: Recognition): (d: Decision)
    requires r.identifier.Some?
    ensures d.Accept? <==>
              && HomeReading(r.identifier.value).Some?
              && r.confidence >= Threshold
              && HomeReading(r.identifier.value).value in Banknotes
    ensures d.Accept? ==> HomeReading(r.identifier.value) == Some(d.amount) && IsDenomination(d.amount * 100)
  {
    match HomeReading(r.identifier.value)
    case None => Reject(Unparseable)
    case Some(amount) =>
      if r.confidence < Threshold then Reject(LowConfidence)
      else if amount !in Banknotes then Reject(NotBanknote)
      else Accept(amount)
  }

  /**
   * On a label without a '.', the two gates agree: they accept the same
   * labels, ScanMoneyView in cents and HomeView in euros.
   */
  lemma GatesAgreeWithoutDot(r: Recognition)
    requires r.identifier.Some? && '.' !in r.identifier.value
    ensures ScanGate(r).Accept? <==> HomeGate(r).Accept?
    ensures ScanGate(r).Accept? ==> ScanGate(r).amount == HomeGate(r).amount * 100
  {
    var text := r.identifier.value;
    ReadingsAgreeWithoutDot(text);
    var t := Filter(text, IsDigit);
    if t != [] {
      var v := DigitsValue(t);
      HundredsBack(v);
      if v > IntMax {
        assert v !in Banknotes;
      }
    }
  }

  lemma HundredsBack(v: nat)
    ensures (v * 100) / 100 == v && TruncEuros(v * 100) == v
  {
  }

  lemma ReadingsAgreeWithoutDot(text: string)
    requires '.' !in text
    ensures var t := Filter(text, IsDigit);
      && (t == [] ==> ScanReading(text).None?)
      && (t != [] ==> ScanReading(text) == Some(DigitsValue(t) * 100))
  {
    FilterAgree(text, IsDigitOrDot, IsDigit);
    var t := Filter(text, IsDigit);
    if t != [] {
      ParseDigits(t);
    } else {
      assert IndexOf(t, '.') == 0;
    }
  }

  /** The value of a two-digit string. */
  lemma TwoDigits(t: string)
    requires |t| == 2 && AllDigits(t)
    ensures DigitsValue(t) == DigitValue(t[0]) * 10 + DigitValue(t[1])
  {
    var h := t[..1];
    assert h[..0] == [] && h[0] == t[0];
    assert DigitsValue(h) == DigitValue(t[0]);
    assert t[..|t| - 1] == h;
  }

  /** A label of two digits reads the same way through both gates' parsers. */
  lemma TwoDigitReadings(t: string)
    requires |t| == 2 && AllDigits(t)
    ensures ScanReading(t) == Some((DigitValue(t[0]) * 10 + DigitValue(t[1])) * 100)
    ensures HomeReading(t) == Some(DigitValue(t[0]) * 10 + DigitValue(t[1]))
  {
    TwoDigits(t);
    ReadingsAgreeWithoutDot(t);
  }

  /** "20.5" shows the difference: ScanMoneyView accepts 20.50 euros, HomeView reads 205 and refuses. */
  lemma DottedLabelSplitsTheGates()
    ensures ScanGate(Recognition(Some("20.5"), 0.9)) == Accept(2050)
    ensures HomeGate(Recognition(Some("20.5"), 0.9)) == Reject(NotBanknote)
  {
    DottedScanGate();
    DottedHomeGate();
  }

  lemma DottedScanGate()
    ensures ScanGate(Recognition(Some("20.5"), 0.9)) == Accept(2050)
  {
    DottedScanReading();
    assert TruncEuros(2050) == 20 && 20 in Banknotes;
  }

  lemma DottedHomeGate()
    ensures HomeGate(Recognition(Some("20.5"), 0.9)) == Reject(NotBanknote)
  {
    DottedHomeReading();
    assert 205 !in Banknotes;
  }

  lemma DottedScanReading()
    ensures ScanReading("20.5") == Some(2050)
  {
    TwoDigits("20");
    ScanReadsNumeral("20", "5");
    assert "20" + "." + "5" == "20.5";
  }

  /** A label of digits, a '.', and digits reads as the amount it spells. */
  lemma ScanReadsNumeral(w: string, f: string)
    requires AllDigits(w) && AllDigits(f) && |w| + |f| > 0
    requires |f| <= 2 || AllZeros(f[2..])
    ensures ScanReading(w + "." + f) == Some(DigitsValue(w) * 100 + FractionCents(f))
  {
    NumeralChars(w, f);
    ParseNumeral(w, f);
  }

  lemma NumeralChars(w: string, f: string)
    requires AllDigits(w) && AllDigits(f)
    ensures forall i | 0 <= i < |w + "." + f| :: IsDigitOrDot((w + "." + f)[i])
  {
    var s := w + "." + f;
    forall i | 0 <= i < |s|
      ensures IsDigitOrDot(s[i])
    {
      if i < |w| {
        assert s[i] == w[i];
      } else if i > |w| {
        assert s[i] == f[i - |w| - 1];
      }
    }
  }

  lemma DottedHomeReading()
    ensures HomeReading("20.5") == Some(205)
  {
    var text := "20.5";
    assert Filter(text, IsDigit) == "205" by {
      assert Filter(text[3..], IsDigit) == "5";
      assert Filter(text[2..], IsDigit) == "5";
      assert Filter(text[1..], IsDigit) == "05";
    }
    var t := "205";
    assert t[..2] == "20";
    TwoDigits("20");
  }

  /** ScanMoneyView lets a value outside the catalog through: "5.5" is accepted as 5.50 euros. */
  lemma ScanAcceptsNonCatalogValue()
    ensures ScanGate(Recognition(Some("5.5"), 0.9)) == Accept(550)
    ensures !IsDenomination(550)
  {
    FiveFiftyReading();
    ScanAccepts(Recognition(Some("5.5"), 0.9), 550);
    FiveFiftyOutsideCatalog();
  }

  lemma FiveFiftyOutsideCatalog()
    ensures !IsDenomination(550)
  {
  }

  lemma FiveFiftyReading()
    ensures ScanReading("5.5") == Some(550)
  {
    assert DigitsValue("5") == 5 by {
      assert "5"[..0] == "";
    }
    ScanReadsNumeral("5", "5");
    assert "5" + "." + "5" == "5.5";
  }

  /** A readable label whose euro part is a banknote value, with enough confidence, passes ScanMoneyView's gate. */
  lemma ScanAccepts(r: Recognition, v: nat)
    requires r.identifier.Some? && ScanReading(r.identifier.value) == Some(v)
    requires r.confidence >= Threshold && TruncEuros(v) in Banknotes
    ensures ScanGate(r) == Accept(v)
  {
  }

  /** A clear "50" is accepted by both gates; at confidence 0.5 it is refused for confidence. */
  lemma FiftyExamples()
    ensures ScanGate(Recognition(Some("50"), 0.95)) == Accept(5000)
    ensures HomeGate(Recognition(Some("50"), 0.95)) == Accept(50)
    ensures ScanGate(Recognition(Some("50"), 0.5)) == Reject(LowConfidence)
    ensures HomeGate(Recognition(Some("50"), 0.5)) == Reject(LowConfidence)
  {
    TwoDigitReadings("50");
  }

  /** Confidence exactly 0.8 passes the gate. */
  lemma ThresholdExample()
    ensures ScanGate(Recognition(Some("10"), 0.8)) == Accept(1000)
    ensures HomeGate(Recognition(Some("10"), 0.8)) == Accept(10)
  {
    TwoDigitReadings("10");
  }

  /** 37 is a number but no banknote. */
  lemma NotBanknoteExample()
    ensures ScanGate(Recognition(Some("37"), 0.9)) == Reject(NotBanknote)
    ensures HomeGate(Recognition(Some("37"), 0.9)) == Reject(NotBanknote)
  {
    TwoDigitReadings("37");
    assert DigitValue('3') == 3 && DigitValue('7') == 7;
    assert 37 !in Banknotes;
    assert TruncEuros(3700) == 37;
  }

  /** A label without digits cannot be read; no label at all is refused first. */
  lemma UnreadableExamples()
    ensures ScanGate(Recognition(Some("abc"), 0.99)) == Reject(Unparseable)
    ensures HomeGate(Recognition(Some("abc"), 0.99)) == Reject(Unparseable)
    ensures ScanGate(Recognition(None, 0.99)) == Reject(NoLabel)
  {
    var abc := "abc";
    assert Filter(abc, IsDigit) == "" by {
      assert Filter(abc[2..], IsDigit) == "";
      assert Filter(abc[1..], IsDigit) == "";
    }
    ReadingsAgreeWithoutDot(abc);
  }

  /** HomeView ignores the currency word: "50 euros" reads as 50. */
  lemma WordLabelExample()
    ensures HomeGate(Recognition(Some("50 euros"), 0.95)) == Accept(50)
  {
    WordReading();
    HomeAccepts(Recognition(Some("50 euros"), 0.95), 50);
  }

  lemma WordReading()
    ensures HomeReading("50 euros") == Some(50)
  {
    WordDigits();
    FiftyDigits();
  }

  lemma FiftyDigits()
    ensures AllDigits("50") && DigitsValue("50") == 50
  {
    TwoDigits("50");
  }

  /** A readable label with a banknote value and enough confidence passes HomeView's gate. */
  lemma HomeAccepts(r: Recognition, v: nat)
    requires r.identifier.Some? && HomeReading(r.identifier.value) == Some(v)
    requires r.confidence >= Threshold && v in Banknotes
    ensures HomeGate(r) == Accept(v)
  {
  }

  lemma WordDigits()
    ensures Filter("50 euros", IsDigit) == "50"
  {
    var e := "50 euros";
    assert e[2..] == " euros";
    FilterNone(" euros", IsDigit);
    assert Filter(e[1..], IsDigit) == "0";
  }
}

=== FILE: scan_money.dfy ===
/**
 * `ScanMoneyView`, the camera sheet that adds one banknote: the capture
 * button, the cancel and confirm buttons, and where a confirmed amount
 * goes. When the sheet was opened from the calculator the amount is handed
 * to its callback; otherwise it is added to the wallet. Confirming always
 * closes the sheet, so one sheet delivers at most one amount.
 *
 * The view's state is modelled as a value and every button press as a
 * total step function. A press on a button the view does not show at that
 * moment changes nothing. Classifying the captured frame is part of the
 * capture step; the frame, if the camera has delivered one, comes with the
 * event.
 */
module ScanMoney {
  import opened Wrappers
  import opened Catalog
  import opened Recognition
  import opened Ledger

  /** What the text at the top of the sheet says. */
  datatype Status = Waiting | Detected(euros: int) | TryAgain

  /** Where a confirmed amount goes: the wallet, or the calculator's `onAmountDetected` callback. */
  datatype Sink = ToLedger(wallet: Wallet) | ToCallback(received: seq<nat>)

  /**
   * `isCaptured`, `capturedAmount` (cents), the status line, the amount's
   * destination, and whether the sheet has been dismissed.
   */
  datatype Scan = Scan(captured: bool, pending: Option<nat>, status: Status, sink: Sink, dismissed: bool)

  /** A freshly presented sheet. */
  function Open(sink: Sink): (s: Scan)
    ensures !s.captured && s.pending.None? && !s.dismissed && s.sink == sink
  {
    Scan(false, None, Waiting, sink, false)
  }

  datatype Event =
    | PressCapture(frame: Option<Recognition>)
    | PressCancel
    | PressConfirm(stamp: Stamp)

  /** The capture button shows before a capture; cancel and confirm show after it; nothing shows once dismissed. */
  predicate Offered(s: Scan, e: Event) {
    !s.dismissed && (if e.PressCapture? then !s.captured else s.captured)
  }

  /**
   * The view's own consistency: no amount is held unless a capture is in
   * progress, and a held amount is the one the gate accepted and the
   * status line shows.
   */
  predicate Consistent(s: Scan) {
    && (!s.captured ==> s.pending.None?)
    && (s.pending.Some? ==>
          && TruncEuros(s.pending.value) in Banknotes
          && 500 <= s.pending.value < 20100
          && s.status == Detected(TruncEuros(s.pending.value)))
  }

  /** Hand `amount` to the sink. */
  function Deliver(sink: Sink, amount: nat, stamp: Stamp): (r: Sink)
    ensures r.ToLedger? <==> sink.ToLedger?
    ensures r.ToCallback? ==> r.received == sink.received + [amount]
    ensures r.ToLedger? ==> r.wallet == AddMoney(sink.wallet, amount, stamp)
  {
    match sink
    case ToLedger(w) => ToLedger(AddMoney(w, amount, stamp))
    case ToCallback(xs) => ToCallback(xs + [amount])
  }

  /** `handleCapturedImage`'s completion: keep an accepted amount, or give the capture button back. */
  function Classify(s: Scan, r: Recognition): (t: Scan)
    ensures ScanGate(r).Accept? ==> t == s.(pending := Some(ScanGate(r).amount), status := Detected(TruncEuros(ScanGate(r).amount)))
    ensures ScanGate(r).Reject? ==> !t.captured && t.status == TryAgain && t.pending == s.pending
    ensures t.sink == s.sink && t.dismissed == s.dismissed
  {
    match ScanGate(r)
    case Accept(amount) => s.(pending := Some(amount), status := Detected(TruncEuros(amount)))
    case Reject(_) => s.(captured := false, status := TryAgain)
  }

  /** One button press. */
  function Step(s: Scan, e: Event): (t: Scan)
    ensures !Offered(s, e) ==> t == s
    ensures Consistent(s) ==> Consistent(t)
    ensures t.sink != s.sink ==> Offered(s, e) && e.PressConfirm? && s.pending.Some?
    ensures Offered(s, e) && e.PressConfirm? ==> t.dismissed
    ensures Consistent(s) && Offered(s, e) && e.PressConfirm? && s.pending.Some? ==>
              t.sink == Deliver(s.sink, s.pending.value, e.stamp)
    ensures Offered(s, e) && e.PressCapture? && e.frame.None? ==> t == s.(captured := true)
    ensures Offered(s, e) && e.PressCapture? && e.frame.Some? ==> t == Classify(s.(captured := true), e.frame.value)
    ensures Offered(s, e) && e.PressCancel? ==> !t.captured && t.pending.None? && t.status == Waiting && t.sink == s.sink
    ensures s.dismissed ==> t == s
  {
    if !Offered(s, e) then s
    else
      match e
      case PressCapture(frame) =>
        var c := s.(captured := true);
        if frame.None? then c else Classify(c, frame.value)
      case PressCancel =>
        s.(captured := false, pending := None, status := Waiting)
      case PressConfirm(stamp) =>
        var sink :=
          if s.pending.Some? && TruncEuros(s.pending.value) in Banknotes
          then Deliver(s.sink, s.pending.value, stamp)
          else s.sink;
        s.(sink := sink, dismissed := true)
  }

  /** A sequence of button presses, first to last. */
  function Run(s: Scan, es: seq<Event>): Scan
    decreases |es|
  {
    if es == [] then s else Run(Step(s, es[0]), es[1..])
  }

  /** How many amounts a sink has received: callback values, or wallet transactions. */
  function Received(sink: Sink): nat {
    match sink
    case ToLedger(w) => |w.history|
    case ToCallback(xs) => |xs|
  }

  /** A dismissed sheet ignores every press. */
  lemma {:induction false} DismissedIsFinal(s: Scan, es: seq<Event>)
    requires s.dismissed
    ensures Run(s, es) == s
    decreases |es|
  {
    if es != [] {
      DismissedIsFinal(Step(s, es[0]), es[1..]);
    }
  }

  /**
   * Whatever is pressed, a sheet delivers at most one amount, it is an
   * accepted banknote reading, and consistency holds throughout.
   */
  lemma {:induction false} AtMostOneDelivery(s: Scan, es: seq<Event>)
    requires Consistent(s)
    ensures var t := Run(s, es);
      && Consistent(t)
      && (s.dismissed ==> t == s)
      && (t.sink == s.sink || exists a: nat, st: Stamp :: TruncEuros(a) in Banknotes && t.sink == Deliver(s.sink, a, st) && t.dismissed)
    decreases |es|
  {
    if s.dismissed {
      DismissedIsFinal(s, es);
    } else if es != [] {
      var s1 := Step(s, es[0]);
      if s1.dismissed {
        DismissedIsFinal(s1, es[1..]);
        if s1.sink != s.sink {
          var a, st := s.pending.value, es[0].stamp;
          assert TruncEuros(a) in Banknotes && s1.sink == Deliver(s.sink, a, st);
        }
      } else {
        AtMostOneDelivery(s1, es[1..]);
      }
    }
  }

  /** From the calculator, the callback receives nothing or exactly one banknote amount. */
  lemma CallbackGetsAtMostOne(es: seq<Event>)
    ensures var t := Run(Open(ToCallback([])), es);
      && t.sink.ToCallback?
      && |t.sink.received| <= 1
      && (forall i | 0 <= i < |t.sink.received| :: TruncEuros(t.sink.received[i]) in Banknotes)
  {
    AtMostOneDelivery(Open(ToCallback([])), es);
  }

  /** From the wallet, the sheet adds at most one transaction, and the ledger invariant survives. */
  lemma LedgerGetsAtMostOne(w: Wallet, es: seq<Event>)
    requires Valid(w)
    ensures var t := Run(Open(ToLedger(w)), es);
      && t.sink.ToLedger?
      && Valid(t.sink.wallet)
      && |w.history| <= Received(t.sink) <= |w.history| + 1
  {
    var s := Open(ToLedger(w));
    AtMostOneDelivery(s, es);
    var t := Run(s, es);
    if t.sink != s.sink {
      var a: nat, st: Stamp :| TruncEuros(a) in Banknotes && t.sink == Deliver(s.sink, a, st) && t.dismissed;
      AddPreservesValid(w, a, st);
    }
  }

  /** Capture of a readable banknote, then confirm: the sheet delivers exactly the gate's amount and closes. */
  lemma CaptureThenConfirm(sink: Sink, r: Recognition, stamp: Stamp)
    requires ScanGate(r).Accept?
    ensures Run(Open(sink), [PressCapture(Some(r)), PressConfirm(stamp)]).sink == Deliver(sink, ScanGate(r).amount, stamp)
    ensures Run(Open(sink), [PressCapture(Some(r)), PressConfirm(stamp)]).dismissed
  {
    var es := [PressCapture(Some(r)), PressConfirm(stamp)];
    var s1 := Step(Open(sink), es[0]);
    assert s1.pending == Some(ScanGate(r).amount) && s1.captured && Consistent(s1);
    var s2 := Step(s1, PressConfirm(stamp));
    assert s2.sink == Deliver(sink, ScanGate(r).amount, stamp) && s2.dismissed;
    assert es[1..] == [PressConfirm(stamp)];
    assert Run(s1, es[1..]) == Run(s2, []);
  }

  /** A rejected capture gives the capture button back and keeps nothing. */
  lemma RejectedCaptureRetries(sink: Sink, r: Recognition)
    requires ScanGate(r).Reject?
    ensures Step(Open(sink), PressCapture(Some(r))) == Open(sink).(status := TryAgain)
  {
  }
}

=== FILE: tally.dfy ===
/**
 * Aggregates over the ledger's denomination → count dictionary: the
 * order-free sums behind `totalBalance` and `totalDenominationCount`, the
 * `reduce` loop that computes them, and the ascending entry list the
 * wallet and chart views display.
 */
module Tally {

  /** A (denomination, count) pair, as Swift's `sorted(by:)` yields a dictionary's elements. */
  type Entry = (int, int)

  /** Some key of a non-empty dictionary. */
  ghost function Pick(m: map<int, int>): (k: int)
    requires |m| > 0
    ensures k in m
  {
    NonEmptyHasKey(m);
    var k :| k in m; k
  }

  lemma NonEmptyHasKey(m: map<int, int>)
    requires |m| > 0
    ensures exists k :: k in m
  {
    if forall k :: k !in m {
      NoKeysMeansEmpty(m);
      assert false;
    }
  }

  lemma NoKeysMeansEmpty(m: map<int, int>)
    ensures (forall k :: k !in m) ==> m == map[]
  {
    if forall k :: k !in m {
      assert m.Keys == {};
      assert m == map[];
    }
  }

  lemma NoMembersMeansEmpty(s: set<int>)
    ensures (forall x :: x !in s) ==> s == {}
  {
    if forall x :: x !in s {
      assert s == {};
    }
  }

  /** Σ f(key, count) over the dictionary. Which key comes first is left open, as in Swift's iteration. */
  ghost function SumBy(m: map<int, int>, f: (int, int) -> int): int
    decreases |m|
  {
    if |m| == 0 then 0
    else
      var k := Pick(m);
      assert (m - {k}).Keys == m.Keys - {k};
      f(k, m[k]) + SumBy(m - {k}, f)
  }

  /** The sum does not depend on the order: any key can be taken out first. */
  lemma {:induction false} SumByRemove(m: map<int, int>, f: (int, int) -> int, k: int)
    requires k in m
    ensures SumBy(m, f) == f(k, m[k]) + SumBy(m - {k}, f)
    decreases |m|
  {
    var j := Pick(m);
    if j != k {
      assert (m - {j}).Keys == m.Keys - {j};
      SumByRemove(m - {j}, f, k);
      SumByRemove(m - {k}, f, j);
      assert m - {j} - {k} == m - {k} - {j};
    }
  }

  /** Overwriting one count changes the sum by the difference of that entry's terms. */
  lemma SumByUpdate(m: map<int, int>, f: (int, int) -> int, k: int, v: int)
    ensures SumBy(m[k := v], f) == SumBy(m, f) - (if k in m then f(k, m[k]) else 0) + f(k, v)
  {
    SumByRemove(m[k := v], f, k);
    if k in m {
      SumByRemove(m, f, k);
      assert m[k := v] - {k} == m - {k};
    } else {
      assert m[k := v] - {k} == m;
    }
  }

  /** The value an entry contributes to the balance: face value × count. */
  function Value(denomination: int, count: int): int {
    denomination * count
  }

  /** The number of pieces an entry contributes. */
  function Quantity(denomination: int, count: int): int {
    count
  }

  /** Σ denomination × count: what `totalBalance` must equal. */
  ghost function Balance(m: map<int, int>): int {
    SumBy(m, Value)
  }

  /** Swift's `reduce` over a dictionary: fold `f` over the entries in whatever order they come out. */
  method FoldMap(m: map<int, int>, f: (int, int) -> int) returns (acc: int)
    ensures acc == SumBy(m, f)
  {
    acc := 0;
    var rest := m;
    while |rest| > 0
      invariant acc + SumBy(rest, f) == SumBy(m, f)
      decreases |rest|
    {
      var k :| k in rest;
      SumByRemove(rest, f, k);
      assert (rest - {k}).Keys == rest.Keys - {k};
      acc := acc + f(k, rest[k]);
      rest := rest - {k};
    }
  }

  predicate StrictlyAscending(es: seq<Entry>) {
    forall i, j | 0 <= i < j < |es| :: es[i].0 < es[j].0
  }

  /** `es` lists exactly the dictionary's entries: every pair is in `m`, and every key of `m` appears. */
  ghost predicate EntriesOf(es: seq<Entry>, m: map<int, int>) {
    && (forall i | 0 <= i < |es| :: es[i].0 in m && es[i].1 == m[es[i].0])
    && (forall k | k in m :: exists i | 0 <= i < |es| :: es[i].0 == k)
  }

  lemma MinimumExists(s: set<int>)
    requires s != {}
    ensures exists k | k in s :: forall j | j in s :: k <= j
    decreases |s|
  {
    if forall x :: x !in s {
      NoMembersMeansEmpty(s);
      assert false;
    }
    var x :| x in s;
    if s - {x} != {} {
      MinimumExists(s - {x});
      var y :| y in s - {x} && forall j | j in s - {x} :: y <= j;
      var least := if x < y then x else y;
      forall j | j in s
        ensures least <= j
      {
        if j != x {
          assert j in s - {x};
        }
      }
    } else {
      assert s == {x};
    }
  }

  /**
   * Halfway through the selection: `es` holds the keys taken so far, in
   * ascending order and all below the keys still in `rest`.
   */
  ghost predicate Selected(m: map<int, int>, es: seq<Entry>, rest: set<int>) {
    && rest <= m.Keys
    && StrictlyAscending(es)
    && (forall i | 0 <= i < |es| :: es[i].0 in m && es[i].1 == m[es[i].0] && es[i].0 !in rest)
    && (forall i, k | 0 <= i < |es| && k in rest :: es[i].0 < k)
    && (forall k | k in m :: k in rest || exists i | 0 <= i < |es| :: es[i].0 == k)
    && |es| + |rest| == |m|
  }

  /** Taking the least remaining key keeps the selection in order. */
  lemma SelectLeast(m: map<int, int>, es: seq<Entry>, rest: set<int>, k: int)
    requires Selected(m, es, rest)
    requires k in rest && forall j | j in rest :: k <= j
    ensures Selected(m, es + [(k, m[k])], rest - {k})
  {
    var es' := es + [(k, m[k])];
    forall key | key in m
      ensures key in rest - {k} || exists i | 0 <= i < |es'| :: es'[i].0 == key
    {
      if key == k {
        assert es'[|es|].0 == key;
      } else if key !in rest {
        var i :| 0 <= i < |es| && es[i].0 == key;
        assert es'[i].0 == key;
      }
    }
  }

  /** `sorted(by: { $0.key < $1.key })`: the dictionary's entries in ascending key order. */
  method SortedEntries(m: map<int, int>) returns (es: seq<Entry>)
    ensures StrictlyAscending(es)
    ensures EntriesOf(es, m)
    ensures |es| == |m|
  {
    es := [];
    var rest := m.Keys;
    while rest != {}
      invariant Selected(m, es, rest)
      decreases |rest|
    {
      MinimumExists(rest);
      var k :| k in rest && forall j | j in rest :: k <= j;
      SelectLeast(m, es, rest, k);
      es := es + [(k, m[k])];
      rest := rest - {k};
    }
  }

  /** Σ f(denomination, count) over a list of entries, front to back. */
  function SeqSum(es: seq<Entry>, f: (int, int) -> int): int
    decreases |es|
  {
    if es == [] then 0 else f(es[0].0, es[0].1) + SeqSum(es[1..], f)
  }

  /** Summing the sorted list gives the same total as summing the dictionary. */
  lemma {:induction false} SeqSumOfEntries(es: seq<Entry>, m: map<int, int>, f: (int, int) -> int)
    requires StrictlyAscending(es) && EntriesOf(es, m)
    ensures SeqSum(es, f) == SumBy(m, f)
    decreases |es|
  {
    if es == [] {
      if |m| > 0 {
        var k := Pick(m);
        assert false;
      }
    } else {
      var k := es[0].0;
      var rest := m - {k};
      forall j | j in rest
        ensures exists i | 0 <= i < |es[1..]| :: es[1..][i].0 == j
      {
        var i :| 0 <= i < |es| && es[i].0 == j;
        assert i != 0;
        assert es[1..][i - 1].0 == j;
      }
      assert EntriesOf(es[1..], rest);
      SeqSumOfEntries(es[1..], rest, f);
      SumByRemove(m, f, k);
    }
  }
}

=== FILE: text.dfy ===
/**
 * Character and string helpers shared by the views: decimal rendering of
 * integers (Swift string interpolation), digit filtering, character
 * replacement, joining, and the `digits[.digits]` numeral grammar the app
 * hands to `Double(_:)`.
 */
module Text {
  import opened Wrappers

  predicate IsDigit(c: char) {
    '0' <= c <= '9'
  }

  predicate AllDigits(s: string) {
    forall i | 0 <= i < |s| :: IsDigit(s[i])
  }

  function DigitValue(c: char): (d: nat)
    requires IsDigit(c)
    ensures d < 10
  {
    c as int - '0' as int
  }

  function DigitChar(d: nat): (c: char)
    requires d < 10
    ensures IsDigit(c) && DigitValue(c) == d
  {
    ('0' as int + d) as char
  }

  /** Decimal rendering of a natural number, without leading zeros. */
  function NatToString(n: nat): (s: string)
    ensures |s| > 0 && AllDigits(s)
    decreases n
  {
    if n < 10 then [DigitChar(n)] else NatToString(n / 10) + [DigitChar(n % 10)]
  }

  /** Decimal rendering of an integer, with a leading '-' when negative. */
  function IntToString(i: int): (s: string)
    ensures |s| > 0
    ensures s[0] == '-' <==> i < 0
    ensures i < 0 ==> s[1..] == NatToString(-i)
  {
    if i < 0 then "-" + NatToString(-i) else NatToString(i)
  }

  /** Value of a string of decimal digits; "" reads as 0 and leading zeros are allowed. */
  function DigitsValue(s: string): nat
    requires AllDigits(s)
    decreases |s|
  {
    if s == [] then 0 else DigitsValue(s[..|s| - 1]) * 10 + DigitValue(s[|s| - 1])
  }

  /** Reading back a rendered natural number gives the number. */
  lemma {:induction false} NatToStringRoundTrip(n: nat)
    ensures DigitsValue(NatToString(n)) == n
    decreases n
  {
    if n >= 10 {
      var s := NatToString(n);
      assert s[..|s| - 1] == NatToString(n / 10);
      NatToStringRoundTrip(n / 10);
    }
  }

  lemma NatToStringInjective(a: nat, b: nat)
    ensures NatToString(a) == NatToString(b) <==> a == b
  {
    NatToStringRoundTrip(a);
    NatToStringRoundTrip(b);
  }

  /**
   * A rendered number followed by a suffix that starts with a non-digit
   * determines both the number and the suffix: "5 euros" can only be read
   * one way.
   */
  lemma NumberThenSuffix(a: nat, s1: string, b: nat, s2: string)
    requires |s1| > 0 && !IsDigit(s1[0])
    requires |s2| > 0 && !IsDigit(s2[0])
    requires NatToString(a) + s1 == NatToString(b) + s2
    ensures a == b && s1 == s2
  {
    var x, y := NatToString(a), NatToString(b);
    DigitsBeforeSuffix(x, s1, y, s2);
    DigitsBeforeSuffix(y, s2, x, s1);
    assert x == (x + s1)[..|x|];
    assert y == (y + s2)[..|y|];
    NatToStringInjective(a, b);
    assert s1 == (x + s1)[|x|..];
    assert s2 == (y + s2)[|y|..];
  }

  lemma DigitsBeforeSuffix(x: string, s1: string, y: string, s2: string)
    requires AllDigits(y) && |s1| > 0 && !IsDigit(s1[0])
    requires x + s1 == y + s2
    ensures |y| <= |x|
  {
    if |x| < |y| {
      CharOfConcat(y, s2, |x|);
      CharOfConcat(x, s1, |x|);
      assert false;
    }
  }

  lemma CharOfConcat(u: string, v: string, i: int)
    ensures 0 <= i < |u| ==> (u + v)[i] == u[i]
    ensures |u| <= i < |u| + |v| ==> (u + v)[i] == v[i - |u|]
  {
  }

  /** Two-digit rendering with a leading zero: the fraction printed by `%.2f`. */
  function Pad2(n: nat): (s: string)
    requires n < 100
    ensures |s| == 2 && AllDigits(s) && FractionCents(s) == n
  {
    [DigitChar(n / 10), DigitChar(n % 10)]
  }

  /** The characters of `s` for which `keep` holds, in their order (Swift's `filter`). */
  function Filter(s: string, keep: char -> bool): (r: string)
    ensures |r| <= |s|
    ensures forall i | 0 <= i < |r| :: keep(r[i])
    ensures (forall i | 0 <= i < |s| :: keep(s[i])) ==> r == s
    decreases |s|
  {
    if s == [] then [] else (if keep(s[0]) then [s[0]] else []) + Filter(s[1..], keep)
  }

  /** A text none of whose characters is kept filters to nothing. */
  lemma {:induction false} FilterNone(s: string, keep: char -> bool)
    requires forall i | 0 <= i < |s| :: !keep(s[i])
    ensures Filter(s, keep) == []
    decreases |s|
  {
    if s != [] {
      assert !keep(s[0]);
      FilterNone(s[1..], keep);
    }
  }

  /** Two filters that agree on every character of `s` keep the same characters. */
  lemma {:induction false} FilterAgree(s: string, k1: char -> bool, k2: char -> bool)
    requires forall i | 0 <= i < |s| :: k1(s[i]) == k2(s[i])
    ensures Filter(s, k1) == Filter(s, k2)
    decreases |s|
  {
    if s != [] {
      FilterAgree(s[1..], k1, k2);
    }
  }

  /** `s` with every `from` replaced by `to` (`replacingOccurrences(of:with:)` on one character). */
  function Replace(s: string, from: char, to: char): (r: string)
    ensures |r| == |s|
    ensures forall i | 0 <= i < |s| :: r[i] == (if s[i] == from then to else s[i])
    decreases |s|
  {
    if s == [] then [] else [if s[0] == from then to else s[0]] + Replace(s[1..], from, to)
  }

  /** Replacing a character the text does not contain changes nothing. */
  lemma ReplaceAbsent(s: string, from: char, to: char)
    requires from !in s
    ensures Replace(s, from, to) == s
  {
    var r := Replace(s, from, to);
    assert forall i | 0 <= i < |s| :: r[i] == s[i];
  }

  /** Replacing `from` by a `to` the text lacks, and then back, gives the text again. */
  lemma ReplaceBack(s: string, from: char, to: char)
    requires to !in s
    ensures Replace(Replace(s, from, to), to, from) == s
  {
    var r := Replace(s, from, to);
    var t := Replace(r, to, from);
    forall i | 0 <= i < |s|
      ensures t[i] == s[i]
    {
      assert s[i] != to;
    }
  }

  /** `parts` separated by `sep` (Swift's `joined(separator:)`). */
  function Join(parts: seq<string>, sep: string): (r: string)
    ensures |parts| == 1 ==> r == parts[0]
    ensures |parts| > 1 ==> r == parts[0] + sep + Join(parts[1..], sep)
    decreases |parts|
  {
    if |parts| == 0 then "" else if |parts| == 1 then parts[0] else parts[0] + sep + Join(parts[1..], sep)
  }

  /** Index of the first `c` in `s`, or `|s|` when there is none. */
  function IndexOf(s: string, c: char): (i: nat)
    ensures i <= |s|
    ensures i < |s| ==> s[i] == c
    ensures forall j | 0 <= j < i :: s[j] != c
    decreases |s|
  {
    if s == [] then 0 else if s[0] == c then 0 else 1 + IndexOf(s[1..], c)
  }

  predicate AllZeros(s: string) {
    forall i | 0 <= i < |s| :: s[i] == '0'
  }

  /** Hundredths denoted by a fractional part: "5" is 50, "05" is 5, "" is 0. */
  function FractionCents(frac: string): (c: nat)
    requires AllDigits(frac)
    ensures c < 100
  {
    if |frac| == 0 then 0
    else if |frac| == 1 then DigitValue(frac[0]) * 10
    else DigitValue(frac[0]) * 10 + DigitValue(frac[1])
  }

  /**
   * A numeral `digits[.digits]` with at least one digit, read as a count of
   * cents. Numerals with a non-zero digit past the hundredths are outside
   * the integer-cent model and read as None, like text that is no numeral.
   */
  function ParseCents(s: string): (r: Option<nat>)
    ensures r.Some? ==> s != [] && (IsDigit(s[0]) || s[0] == '.')
  {
    var dot := IndexOf(s, '.');
    var whole := s[..dot];
    var frac := if dot < |s| then s[dot + 1..] else "";
    if AllDigits(whole) && AllDigits(frac) && |whole| + |frac| > 0 && (|frac| <= 2 || AllZeros(frac[2..])) then
      Some(DigitsValue(whole) * 100 + FractionCents(frac))
    else
      None
  }

  /** A numeral with digits `w`, a '.', and digits `f` reads as `w` euros and the cents `f` denotes. */
  lemma ParseNumeral(w: string, f: string)
    requires AllDigits(w) && AllDigits(f) && |w| + |f| > 0
    requires |f| <= 2 || AllZeros(f[2..])
    ensures ParseCents(w + "." + f) == Some(DigitsValue(w) * 100 + FractionCents(f))
  {
    DotSplit(w, f);
    ParseAtDot(w + "." + f, w, f);
  }

  /** A text whose first '.' separates digits `w` from digits `f` reads as `w` euros and `f` cents. */
  lemma ParseAtDot(s: string, w: string, f: string)
    requires AllDigits(w) && AllDigits(f) && |w| + |f| > 0
    requires |f| <= 2 || AllZeros(f[2..])
    requires IndexOf(s, '.') == |w| < |s|
    requires s[..|w|] == w && s[|w| + 1..] == f
    ensures ParseCents(s) == Some(DigitsValue(w) * 100 + FractionCents(f))
  {
  }

  /** The first '.' of digits `w`, a '.', and `f` sits right after `w`. */
  lemma DotSplit(w: string, f: string)
    requires AllDigits(w)
    ensures IndexOf(w + "." + f, '.') == |w|
    ensures (w + "." + f)[..|w|] == w && (w + "." + f)[|w| + 1..] == f
  {
    var s := w + "." + f;
    assert s == w + ("." + f);
    IndexOfAfterDigits(w, "." + f);
    assert s[..|w|] == w;
    assert s[|w| + 1..] == f;
  }

  /**
   * Every text that reads as an amount is digits `w`, optionally followed by
   * a '.' and digits `f`, with a digit somewhere and nothing but zeros past
   * the hundredths, and it reads as `w` euros and the cents `f` denotes.
   */
  lemma ParsedShape(s: string) returns (w: string, f: string)
    requires ParseCents(s).Some?
    ensures AllDigits(w) && AllDigits(f) && |w| + |f| > 0
    ensures |f| <= 2 || AllZeros(f[2..])
    ensures s == w + "." + f || (s == w && f == [])
    ensures ParseCents(s) == Some(DigitsValue(w) * 100 + FractionCents(f))
  {
    var dot := IndexOf(s, '.');
    w := s[..dot];
    if dot < |s| {
      f := s[dot + 1..];
      Rejoin(s, dot);
    } else {
      f := "";
      assert s == w;
    }
  }

  /** A text is its part before a '.', the '.', and its part after. */
  lemma Rejoin(s: string, i: nat)
    requires i < |s| && s[i] == '.'
    ensures s == s[..i] + "." + s[i + 1..]
  {
  }

  lemma IndexOfAfterDigits(x: string, rest: string)
    requires AllDigits(x)
    ensures IndexOf(x + rest, '.') == |x| + IndexOf(rest, '.')
    decreases |x|
  {
    if x != [] {
      var s := x + rest;
      assert IsDigit(x[0]) && s[0] == x[0];
      assert s[1..] == x[1..] + rest;
      IndexOfAfterDigits(x[1..], rest);
      assert IndexOf(s, '.') == 1 + IndexOf(s[1..], '.');
    } else {
      assert x + rest == rest;
    }
  }

  /** A rendered whole number reads back as that many hundreds of cents. */
  lemma ParseWholeRoundTrip(n: nat)
    ensures ParseCents(NatToString(n)) == Some(n * 100)
  {
    ParseDigits(NatToString(n));
    NatToStringRoundTrip(n);
  }

  /** A non-empty string of digits reads as that many whole euros. */
  lemma ParseDigits(t: string)
    requires AllDigits(t) && t != []
    ensures ParseCents(t) == Some(DigitsValue(t) * 100)
  {
    IndexOfAfterDigits(t, "");
    assert t + "" == t;
    assert t[..|t|] == t;
  }

  /** `n.rr` reads back as `n` hundreds plus `rr` cents. */
  lemma ParseDecimalRoundTrip(n: nat, r: nat)
    requires r < 100
    ensures ParseCents(NatToString(n) + "." + Pad2(r)) == Some(n * 100 + r)
  {
    var x := NatToString(n);
    var s := x + "." + Pad2(r);
    assert s == x + ("." + Pad2(r));
    IndexOfAfterDigits(x, "." + Pad2(r));
    assert IndexOf(s, '.') == |x|;
    assert s[..|x|] == x;
    assert s[|x| + 1..] == Pad2(r);
    NatToStringRoundTrip(n);
  }
}

=== FILE: wallet_screen.dfy ===
/**
 * `WalletView`: the wallet screen. It shows the balance and the savings
 * goal as text, a goal-achieved badge, a progress bar towards the goal,
 * one row per denomination held (smallest first), and the two deletion
 * confirmations. Amounts are integer cents; the progress is a real.
 */
module WalletScreen {
  import opened Wrappers
  import opened Text
  import opened Catalog
  import opened Tally
  import opened Ledger

  /**
   * `formattedAmount` on this screen: "0 euro" and "1 euro", cents below
   * one euro ("1 cent" singular, negatives included), whole euros without
   * decimals, and two decimals otherwise.
   */
  function WalletAmount(cents: int): (r: string)
    ensures |r| > 0
    ensures cents >= 0 ==> IsDigit(r[0])
    ensures cents < 0 ==> r[0] == '-'
  {
    if cents == 0 then "0 euro"
    else if cents == 100 then "1 euro"
    else if cents < 100 then (if cents == 1 then "1 cent" else IntToString(cents) + " cents")
    else if cents % 100 == 0 then NatToString(cents / 100) + " euros"
    else NatToString(cents / 100) + "." + Pad2(cents % 100) + " euros"
  }

  /**
   * Every non-negative amount's text is a number followed by a unit that
   * starts with a space or a '.', and the number and unit give the amount back.
   */
  lemma WalletAmountShape(cents: nat) returns (k: nat, unit: string)
    ensures WalletAmount(cents) == NatToString(k) + unit
    ensures |unit| > 0 && !IsDigit(unit[0])
    ensures Reading(k, unit) == cents
  {
    if cents <= 100 {
      k, unit := SmallShape(cents);
    } else if cents % 100 == 0 {
      k, unit := cents / 100, " euros";
    } else {
      k, unit := DecimalShape(cents);
    }
  }

  lemma SmallShape(cents: nat) returns (k: nat, unit: string)
    requires cents <= 100
    ensures WalletAmount(cents) == NatToString(k) + unit
    ensures |unit| > 0 && !IsDigit(unit[0])
    ensures Reading(k, unit) == cents
  {
    if cents == 0 {
      k, unit := 0, " euro";
    } else if cents == 100 {
      k, unit := 1, " euro";
    } else {
      k, unit := cents, if cents == 1 then " cent" else " cents";
    }
  }

  lemma DecimalShape(cents: nat) returns (k: nat, unit: string)
    requires cents > 100 && cents % 100 != 0
    ensures WalletAmount(cents) == NatToString(k) + unit
    ensures |unit| > 0 && !IsDigit(unit[0])
    ensures Reading(k, unit) == cents
  {
    var f := Pad2(cents % 100);
    k, unit := cents / 100, "." + f + " euros";
    assert WalletAmount(cents) == NatToString(k) + "." + f + " euros";
    assert unit[0] == '.' && unit[1..3] == f;
    assert unit != " cent" && unit != " cents" && unit != " euro" && unit != " euros";
  }

  /** The amount a number and a unit of `WalletAmount` denote. */
  function Reading(k: nat, unit: string): int {
    if unit == " cent" || unit == " cents" then k
    else if unit == " euro" || unit == " euros" then k * 100
    else if |unit| >= 3 && unit[0] == '.' && AllDigits(unit[1..3]) then k * 100 + FractionCents(unit[1..3])
    else -1
  }

  /** Different non-negative amounts are shown differently. */
  lemma WalletAmountInjective(a: nat, b: nat)
    requires WalletAmount(a) == WalletAmount(b)
    ensures a == b
  {
    var ka, ua := WalletAmountShape(a);
    var kb, ub := WalletAmountShape(b);
    NumberThenSuffix(ka, ua, kb, ub);
  }

  /** The goal-achieved badge: the balance has reached a positive goal. */
  predicate GoalAchieved(total: int, goal: int): (b: bool)
    ensures b ==> total > 0
  {
    total >= goal && goal > 0
  }

  function Min1(x: real): real {
    if x < 1.0 then x else 1.0
  }

  /**
   * The progress bar as written: the balance over the goal, with the goal
   * raised to at least one euro so that the division is defined, capped at 1.
   */
  function ProgressAsWritten(total: int, goal: int): (p: real)
    ensures p <= 1.0
    ensures total >= 0 ==> p >= 0.0
  {
    var divisor := if goal > 100 then goal else 100;
    Min1(total as real / divisor as real)
  }

  /** A goal under one euro that the balance reaches: the badge shows while the bar is half full. */
  lemma ProgressDisagreesWithBadge()
    ensures GoalAchieved(50, 30)
    ensures ProgressAsWritten(50, 30) == 0.5
  {
  }

  /**
   * The progress bar with the divisor raised only for goals that are not
   * positive, where the badge never shows.
   */
  function Progress(total: int, goal: int): (p: real)
    ensures p <= 1.0
    ensures total >= 0 ==> p >= 0.0
    ensures goal > 0 ==> (p == 1.0 <==> GoalAchieved(total, goal))
  {
    var divisor := if goal > 0 then goal else 100;
    RatioReachesOne(total, divisor);
    Min1(total as real / divisor as real)
  }

  lemma RatioReachesOne(t: int, d: int)
    requires d > 0
    ensures t as real / d as real >= 1.0 <==> t >= d
    ensures t >= 0 ==> t as real / d as real >= 0.0
  {
    var q := t as real / d as real;
    assert q * d as real == t as real;
    if q >= 1.0 {
      assert q * d as real >= d as real;
    }
    if t >= d {
      assert t as real >= d as real;
    }
  }

  /** For goals of a euro or more the two bars agree, so the correction only changes sub-euro goals. */
  lemma ProgressAgreesFromOneEuro(total: int, goal: int)
    requires goal >= 100
    ensures Progress(total, goal) == ProgressAsWritten(total, goal)
  {
  }

  /** One denomination row: its label, " x ", and the count. */
  function RowText(e: Entry): string {
    Label(e.0) + " x " + IntToString(e.1)
  }

  /** What the screen shows for a wallet. */
  datatype Screen = Screen(totalLine: string, goalLine: string, achieved: bool, progress: real, rows: seq<string>)

  /**
   * The screen for a wallet: balance and goal lines, badge, bar as written,
   * and rows in ascending face value. The bar is full exactly when the badge
   * shows only for goals of one euro or more.
   */
  method Render(w: Wallet) returns (v: Screen, es: seq<Entry>)
    ensures v.totalLine == "Total Balance: " + WalletAmount(w.total)
    ensures v.goalLine == "Savings Goal: " + WalletAmount(w.goal)
    ensures v.achieved <==> w.total >= w.goal && w.goal > 0
    ensures v.progress <= 1.0 && (w.total >= 0 ==> v.progress >= 0.0)
    ensures w.goal >= 100 ==> (v.progress == 1.0 <==> v.achieved)
    ensures StrictlyAscending(es) && EntriesOf(es, w.denominations) && |es| == |w.denominations|
    ensures |v.rows| == |es| && forall i | 0 <= i < |es| :: v.rows[i] == RowText(es[i])
  {
    es := SortedEntries(w.denominations);
    var rows := seq(|es|, i requires 0 <= i < |es| => RowText(es[i]));
    if w.goal >= 100 {
      ProgressAgreesFromOneEuro(w.total, w.goal);
    }
    v := Screen("Total Balance: " + WalletAmount(w.total), "Savings Goal: " + WalletAmount(w.goal),
                GoalAchieved(w.total, w.goal), ProgressAsWritten(w.total, w.goal), rows);
  }

  /** The remove confirmation: a selected denomination loses one piece; with none selected nothing happens. */
  function DeleteConfirm(w: Wallet, selected: Option<int>, stamp: Stamp): (r: Wallet)
    ensures selected.None? ==> r == w
    ensures selected.Some? && CanRemove(w, selected.value) ==>
              Count(r, selected.value) == Count(w, selected.value) - 1 && r.total == w.total - selected.value
    ensures selected.Some? && !CanRemove(w, selected.value) ==> r == w
  {
    match selected
    case None => w
    case Some(d) => RemoveMoney(w, d, stamp)
  }

  /** A row's delete action, confirmed, removes one piece of that row's denomination and keeps the ledger invariant. */
  lemma DeleteRow(w: Wallet, es: seq<Entry>, i: int, stamp: Stamp)
    requires Valid(w) && EntriesOf(es, w.denominations) && 0 <= i < |es|
    ensures var r := DeleteConfirm(w, Some(es[i].0), stamp);
      && Valid(r)
      && Count(r, es[i].0) == es[i].1 - 1
      && r.total == w.total - es[i].0
      && (forall k | k != es[i].0 :: Count(r, k) == Count(w, k))
  {
    RemovePreservesValid(w, es[i].0, stamp);
  }

  /** The delete-all confirmation. */
  function DeleteAllConfirm(w: Wallet): (r: Wallet)
    ensures r.denominations == map[] && r.total == 0
    ensures r.history == w.history && r.goal == w.goal
  {
    ClearAll(w)
  }
}

=== FILE: wrappers.dfy ===
/** Optional values: Swift's `T?` as used throughout the wallet app. */
module Wrappers {

  datatype Option<+T> = None | Some(value: T) {

    /** The wrapped value, or `default` when there is none (Swift's `??`). */
    function GetOr(default: T): T {
      match this
      case Some(v) => v
      case None => default
    }
  }
}
